=== FILE: README.md ===
# OpenLDAP SASL security layer, modelled in Dafny

This project models the SASL part of libldap (`libraries/libldap/sasl.c`). Once a
SASL bind has negotiated a non-zero security strength factor, libldap pushes a
security layer onto the connection's Sockbuf. From then on, every protected packet
on the wire is a four-octet network-order length followed by that many octets, as
section 3 of RFC 2222 lays out.

The model covers:

- the frame-length parser and its clamp for hostile lengths;
- the compaction that moves pipelined bytes to the front of the encrypted-input
  staging buffer;
- the read adapter, which serves decrypted bytes, stages a whole frame, decodes it,
  drops it and serves the rest;
- the write adapter, which flushes the previous packet before encoding the next;
- the data-ready control;
- the small session helpers: the SASL-to-LDAP error map and the outcomes it
  signals, the mechanism-list join, the credential callback and the callback table
  of a negotiated bind, the SSF options, and the checks `ldap_sasl_bind` makes
  before it chooses the request to encode.

Modules:

- `Basics`: bytes, `Option`, and the allocator as a `Heap` of limited size.
- `Frame`: the length header.
  - `PktLength` is `sb_sasl_pkt_length`.
  - `Packet`, `WellFramed` and the header round trips state the wire format.
- `Buffers`: `Sockbuf_Buf` as backing storage plus cursors.
  - `CopyOut` is `ber_pvt_sb_copy_out`.
  - `Grow` is `ber_pvt_sb_grow_buffer`.
  - `DropPacket` is `sb_sasl_drop_packet`.
- `Transport`: the layer below, as a script of arrivals.
  - An arrival is either a chunk of bytes or an errno.
  - A read takes as much of the next chunk as it asked for.
  - An exhausted script reads as end of stream.
  - A live script has only non-empty chunks and EINTR errors, so it neither
    closes early nor fails.
- `Adapter`: `sb_sasl_setup`, `sb_sasl_read` (`Read`, with its two defects
  corrected, see Findings), `sb_sasl_write` and `sb_sasl_ctrl`.
  - The negotiated context's `sasl_encode` and `sasl_decode` are a `Codec` of two
    arbitrary functions that may fail.
  - The central invariant is conservation: the bytes staged plus the bytes the
    transport will still deliver (`Arriving`) are only ever consumed from the front,
    one whole frame at a time.
- `AsWritten`: `sb_sasl_read` exactly as the source writes it, with the inputs that
  show its defects.
- `Codes`, `ErrorMap`, `Bind`, `Callbacks`, `Options` and `MechList`: the session
  helpers.

`Codes` holds the values of Cyrus SASL's `sasl.h` and of libldap's `ldap.h` from the
era of this source. Neither header is part of this model.

## Model

| member | source | states |
|---|---|---|
| Frame.PktLength | libraries/libldap/sasl.c:465-485 | The frame size is the big-endian header value plus 4 exactly when that value is at most 65536. Above that it is 16 + 4. It always lies in [4, 65540]. |
| Frame.DecodeEncodeLength | libraries/libldap/sasl.c:473-474 | Reading a four-octet network-order header written for any 32-bit length gives that length back. |
| Frame.EncodeDecodeLength | libraries/libldap/sasl.c:473-474 | Every four-octet header is the encoding of the value read from it, so the header parse loses nothing. |
| Frame.Packet | libraries/libldap/sasl.c:465-485 | A body of at most 65536 bytes, prefixed with its length, is well framed and keeps the body after the header. |
| Frame.FramedLength | libraries/libldap/sasl.c:544-553 | Whatever follows a well-framed packet on the stream, the frame size taken from its header is exactly that packet's size. |
| Buffers.CopyOut | libraries/libldap/sasl.c:520-522 | Hands out min(len, pending) bytes. These followed by what stays pending are exactly what was pending, in order. |
| Buffers.Grow | libraries/libldap/sasl.c:548-552 | Growth succeeds exactly when the allocator can supply the requested size. It keeps the content and both cursors. |
| Buffers.Append | libraries/libldap/sasl.c:560-569 | A read stored at the write cursor extends the staged bytes by exactly the chunk received. |
| Buffers.DropPacket | libraries/libldap/sasl.c:488-506 | The bytes staged after the decoded frame move, in order, to offset 0. The cursor becomes their count. The frame end becomes the frame size of their header when at least 4 remain, else 0. |
| Adapter.Setup | libraries/libldap/sasl.c:425-447 | Setup succeeds exactly when the 4096-byte staging buffer can be allocated. It then leaves all three buffers empty. |
| Adapter.FillPass | libraries/libldap/sasl.c:556-569 | One receive of the staging loop. An EINTR goes round again with nothing consumed but the error. A non-empty chunk goes round again with as much of it as is still missing appended at the write cursor. End of stream ends the loop with 0, and any other error ends it with that error, in both cases consuming only that arrival. Staged plus still-arriving bytes are conserved. |
| Adapter.FillPassLive | libraries/libldap/sasl.c:556-569 | On a stream whose only errors are EINTR, a pass ends the loop only at end of stream and otherwise leaves such a stream behind. |
| Adapter.FillTo | libraries/libldap/sasl.c:556-570 | Reads at the write cursor until `target` bytes are staged, retrying on EINTR. It stops at end of stream or any other error, with that result. Staged plus still-arriving bytes are conserved. On a stream whose only errors are EINTR it stops only at end of stream, returning 0, and only when fewer than `target` bytes were ever to arrive. |
| Adapter.TransportResultsHandled | libraries/libldap/sasl.c:556-569 | With bytes still missing, an EINTR is retried as if it had not happened. Any other error, and end of stream, ends the loop with exactly that result, consuming nothing else. |
| Adapter.ReceiveFrame | libraries/libldap/sasl.c:544-570 | Sizes the frame from the staged header. The buffer keeps its size when the frame fits and is grown to exactly the frame size when it does not. It fails with no memory exactly when the frame exceeds both the buffer and the allocator. Otherwise it stages toward that frame end, conserving the stream; a stop on a stream whose only errors are EINTR reports 0. |
| Adapter.DropConserves | libraries/libldap/sasl.c:586-587 | Dropping a fully staged frame removes exactly that frame from the front of the arriving bytes. |
| Adapter.DecodeFrame | libraries/libldap/sasl.c:572-593 | Decode fails exactly when the context rejects the frame: EIO, -1, frame dropped, nothing queued. Otherwise the decoded bytes follow those already delivered, up to the request, and the rest are queued. Either way the stream resumes right after the frame. |
| Adapter.ReadPacket | libraries/libldap/sasl.c:544-593 | Every exit reports the stream position it leaves. A transport stop or lack of memory consumes nothing; lack of memory means the frame exceeds both buffer and allocator. A decode failure or success consumes exactly one frame of the announced size. On a stream whose only errors are EINTR, a stop returns 0. |
| Adapter.ReadSlow | libraries/libldap/sasl.c:527-593 | Header and body staging followed by decode. EINTR is never returned. Each exit fixes what was consumed and what the caller received. On a stream whose only errors are EINTR, a stop returns 0 and happens only when the stream ends inside a header or frame. |
| Adapter.ReadKeeping | libraries/libldap/sasl.c:527-593 | The slow path with the data-loss defect corrected. A transport stop or a failed allocation after bytes were handed out reports their count, not 0 or -1. A decoded frame returns the count of all bytes handed out. Every other exit is as in ReadSlow. |
| Adapter.ReadQueued | libraries/libldap/sasl.c:519-593 | When the queue holds fewer than `len` bytes: they are handed out first, then at most one frame's decoding, and each exit is stated in terms of the original queue and request. |
| Adapter.Read | libraries/libldap/sasl.c:508-594 | Fast path exactly when the queue holds `len` bytes: returns `len` with no transport read. Otherwise it hands out the old queue plus at most one frame's decoding, never more than `len`, and a decoded frame returns the count handed out. A decode failure returns EIO. A transport stop or a failed allocation returns the bytes already delivered when there are any, else the failure; on a stream whose only errors are EINTR a stop returns that count or 0. |
| Adapter.ReadRetriesInterrupt | libraries/libldap/sasl.c:530-536 | A read that needs a header from the transport, when the transport reports EINTR, has exactly the outcome it would have had without that report. |
| Adapter.ReadReturnsTransportError | libraries/libldap/sasl.c:530-538 | Any other error while a header is missing ends the read with that very error when nothing was queued, and otherwise with the count of the queued bytes handed out. Only the error is consumed, and what was staged is kept. |
| Adapter.FrameTransportResults | libraries/libldap/sasl.c:548-569 | With the header staged and room for its frame, an EINTR while the body is incomplete is retried as if it had not happened, and any other error ends the staging with that error, consuming nothing else and keeping what was staged. |
| Adapter.BodyRetriesInterrupt | libraries/libldap/sasl.c:556-565 | A read whose header is staged and whose frame fits, or can be allocated, has exactly the same outcome when the transport reports EINTR during the body. |
| Adapter.BodyReturnsTransportError | libraries/libldap/sasl.c:556-567 | In that state any other error ends the read with that very error when nothing was queued, and otherwise with the count of the queued bytes handed out. Only the error is consumed, and what was staged is kept. |
| Adapter.Backlog | libraries/libldap/sasl.c:607-612 | Nothing is flushed when no earlier packet is pending. Otherwise the pending packet is flushed, and what it sends is a prefix of it. |
| Adapter.SendPacket | libraries/libldap/sasl.c:614-629 | Encodes the data as one packet exactly when encode succeeds, else returns -1 with nothing pending. The flush sends a prefix and keeps the rest pending. A complete send returns `len`; otherwise the flush's result. |
| Adapter.Write | libraries/libldap/sasl.c:596-630 | When a pending packet cannot be flushed whole, the flush's result is returned without encoding; any prefix it sent is on the wire and the rest stays pending. Otherwise the backlog went out whole, and a new packet is encoded exactly when encode succeeds, an encode failure giving -1. The wire gets the backlog's bytes, then the packet's. The result is `len` when the packet went out whole, else the flush's value. |
| Adapter.Ctrl | libraries/libldap/sasl.c:632-645 | Data-ready is answered 1 when decrypted bytes are queued. Every other query, and that one otherwise, goes to the layer below. |
| Adapter.ReadyMeansServedLocally | libraries/libldap/sasl.c:519-525 | Whatever the layer below would answer, data-ready reports 1 when a one-byte read takes the fast path without touching the transport, and gives the layer below's answer exactly when it does not. |
| Adapter.ReadOneFrame | libraries/libldap/sasl.c:527-593 | On a stream that starts with a well-framed packet, however it is split into reads and however often those are interrupted by EINTR, one read consumes exactly that packet and hands out its decoding. |
| Adapter.PipelinedFrames | libraries/libldap/sasl.c:488-506 | Two packets sent back to back and arriving in any pieces, with any EINTR interruptions, are handed out by two reads, in order, each exactly once. |
| Adapter.WriteThenRead | libraries/libldap/sasl.c:596-630 | What a write puts on the wire, read back through a context whose decode undoes its encode, gives the written data back. |
| Adapter.WriteKeepsOrder | libraries/libldap/sasl.c:607-629 | Whatever the transport takes, what a write sends followed by what stays pending is the earlier packet's unsent bytes and then the new packet, if one was encoded. Nothing is lost or reordered. |
| Adapter.WritesResume | libraries/libldap/sasl.c:607-629 | Across two writes, a packet only partly sent by the first is finished by the second before its own packet. The two calls together send the packets' bytes in order. |
| AsWritten.FillHeaderAsWritten | libraries/libldap/sasl.c:530-541 | The header loop as written stores each read at offset 0. It only ever changes the first four bytes, and its cursor advances by the bytes consumed. |
| AsWritten.ReadSlowAsWritten | libraries/libldap/sasl.c:527-593 | The slow path as written. A transport stop or a failed allocation returns 0 or -1 although bytes were delivered. |
| AsWritten.ReadAsWritten | libraries/libldap/sasl.c:508-594 | The read as written. The fast path is the same as the corrected one. A transport stop or a failed allocation after delivering queued bytes returns 0 or -1 with the queue emptied. |
| AsWritten.SplitHeaderAsWritten | libraries/libldap/sasl.c:530-541 | The header [0,0,0,5] arriving as two 2-byte reads is staged as [0,5] followed by whatever the storage held in bytes 2 and 3. |
| AsWritten.SplitHeaderCorrected | libraries/libldap/sasl.c:530-541 | The same arrivals staged at the cursor give the header [0,0,0,5], whatever the storage held. |
| AsWritten.SplitHeaderMisread | libraries/libldap/sasl.c:530-553 | As written, that split header sizes a 20-byte frame whatever the storage held. At the cursor it sizes the 9-byte frame the peer sent. |
| AsWritten.PendingBytesDropped | libraries/libldap/sasl.c:519-541 | Two queued bytes, a 5-byte request, then EAGAIN. As written, the two bytes are copied out, the queue is emptied and -1 is returned. Corrected, 2 is returned. |
| AsWritten.PendingBytesDroppedNoMemory | libraries/libldap/sasl.c:519-552 | A layer as set up, with its 4096-byte staging buffer, holding two queued bytes. A 5-byte request, then the header of a 5004-byte frame, with room for only 4096 bytes in the allocator. As written, -1 (ENOMEM) is returned with the two bytes copied out and the queue emptied. Corrected, 2 is returned and the header stays staged. |
| ErrorMap.SaslErrToLdap | libraries/libldap/sasl.c:669-707 | Total. The result is SUCCESS or an API error. SUCCESS, MORE_RESULTS_TO_RETURN, NO_MEMORY and PARAM_ERROR come exactly from OK, CONTINUE, NOMEM and NOAUTHZ. AUTH_UNKNOWN comes exactly from NOMECH, BADAUTH, TOOWEAK and ENCRYPT. LOCAL_ERROR comes from everything else. |
| ErrorMap.Classify | libraries/libldap/sasl.c:670-707 | Sorts every SASL status into what it means to a bind. More data, success, out of memory and invalid parameter come exactly from CONTINUE, OK, NOMEM and NOAUTHZ. Failed authentication comes exactly from NOMECH, BADAUTH, TOOWEAK and ENCRYPT. Every other status is a local failure. |
| ErrorMap.Recover | libraries/libldap/sasl.c:670-707 | Reads an outcome back from an LDAP code, and only from the code that signals it. |
| ErrorMap.SignalRecover | libraries/libldap/sasl.c:670-707 | Distinct outcomes are signalled by distinct LDAP codes. |
| ErrorMap.MapFollowsOutcome | libraries/libldap/sasl.c:670-707 | The map is the classification followed by its signal. Every status maps to a recognised code, never passed through, and the code tells exactly which outcome the status meant. |
| ErrorMap.FailuresStayFailures | libraries/libldap/sasl.c:670-707 | Every negative SASL status is classified as a failure and becomes an LDAP API error, never success or "more results". |
| Bind.SaslBindPrecheck | libraries/libldap/sasl.c:70-94 | A missing message-id pointer gives PARAM_ERROR. NOT_SUPPORTED comes exactly from a SASL mechanism below version 3. NO_MEMORY comes exactly from a failed allocation of the request once both checks pass. A supplied DN is sent unchanged. Only a simple bind with credentials and no DN takes the default DN. Any other missing DN is sent as "". |
| Bind.SaslBind | libraries/libldap/sasl.c:52-118 | A request carries the next message id and the handle's version. It is simple exactly when no mechanism is named, carrying the password as passed, and otherwise SASL with the named mechanism and the credentials as passed. |
| Bind.RequestFollowsPrecheck | libraries/libldap/sasl.c:52-118 | A request is sent exactly when the checks pass, under the DN they settled, and a refusal carries their result code. A SASL request is never sent below version 3. |
| Callbacks.GetSimple | libraries/libldap/sasl.c:941-967 | OK exactly for a non-NULL result pointer and USER, AUTHNAME or LANGUAGE, else BADPARAM with nothing written. USER and AUTHNAME return the registered string and LANGUAGE returns NULL. A reported length is that string's length, or 0 for NULL. |
| Callbacks.NegotiatedCallbacks | libraries/libldap/sasl.c:1088-1108 | The table holds the authentication identity, then the authorization identity exactly when one is given, then the passphrase and the terminator, and fits the four-entry array. |
| Callbacks.Ask | libraries/libldap/sasl.c:941-967 | A simple value obtained from a table is getsimple's answer for an entry registered under that id. |
| Callbacks.NegotiatedAnswers | libraries/libldap/sasl.c:1088-1108 | Through the table a negotiated bind registers, the authentication identity is always answered with its length. The authorization identity is answered only when given. A language is never answered. |
| Options.GetOption | libraries/libldap/sasl.c:969-1000 | A NULL handle or an unknown option gives -1. MINSSF and MAXSSF read the handle's bounds. ACTSSF reads -1 without a context, and otherwise the context's factor, or fails when the library cannot report it. |
| Options.SetOption | libraries/libldap/sasl.c:1002-1021 | Succeeds exactly for MINSSF and MAXSSF on a non-NULL handle and changes only that bound. ACTSSF and other options give -1 and leave the handle alone. |
| Options.GetAfterSet | libraries/libldap/sasl.c:969-1021 | After a successful set, the option reads back the value set and the other options read as before. |
| Options.ActualSsfReadOnly | libraries/libldap/sasl.c:1015-1018 | Setting ACTSSF fails and leaves what it reads unchanged. |
| MechList.JoinFits | libraries/libldap/sasl.c:357-392 | For a non-empty list, the space-joined names plus the terminator take exactly the sum of (name length + 1) bytes that the first pass allocates. |
| MechList.SplitJoin | libraries/libldap/sasl.c:357-392 | Cutting the joined list at its spaces gives back the names, when no name contains a space. |
| MechList.ArrayToStr | libraries/libldap/sasl.c:357-392 | NULL exactly for an empty list or a failed allocation. Otherwise the names joined by single spaces plus the terminator, exactly filling the allocation. |

## Left out

- The bind negotiation loop `ldap_pvt_sasl_bind`, `ldap_pvt_sasl_getmechs`,
  `ldap_pvt_sasl_init` and `ldap_pvt_sasl_getsecret` are not modelled.
  - They are orchestration of Cyrus SASL calls, a directory search, a
    process-global flag and allocation.
  - `ldap_pvt_sasl_getsecret` dereferences its passphrase before the NULL test, and
    nothing here claims otherwise.
- BER encoding and decoding in `ldap_sasl_bind`, `ldap_sasl_bind_s` and
  `ldap_parse_sasl_bind_result` are not modelled (the request and response of
  section 4.2 of RFC 2251).
  - The checks before encoding are `Bind.SaslBindPrecheck`, and a failed
    allocation of the request element is its `berAvailable` parameter.
  - The fields of the request are `Bind.SaslBind`; their encoding, its failure
    (LDAP_ENCODING_ERROR, lines 120-136), the controls and the send are not
    modelled.
- The security layer's install and `sb_sasl_remove` are not modelled: removal only
  destroys the three buffers.
- Cryptography: `sasl_encode` and `sasl_decode` are arbitrary functions that may
  fail, and the SASL context itself is not modelled.
- The header is read as exactly four big-endian octets.
  - The source loads a `long` from the buffer and passes it to `ntohl`, which
    takes the low 32 bits of that load.
  - Where `long` is 32 bits, and on little-endian machines where it is 64 bits,
    those are octets 0-3, as modelled.
  - On a big-endian machine with a 64-bit `long` they are octets 4-7, which the
    model does not reproduce.
  - With a 64-bit `long` the load reads eight octets, four past the header. They
    still lie inside the staging buffer, which is never smaller than 4096 bytes.
- Adapter.DecodeFrame and Adapter.SendPacket: the decoded and encoded lengths are
  taken as exact.
  - The source has `sasl_decode` and `sasl_encode` write them as an `unsigned`
    through a pointer to a `ber_len_t` field (lines 575 and 617).
  - Where that field is wider than `unsigned` and the machine is big-endian, the
    length lands in the field's high half, which the model does not reproduce.
  - On little-endian machines the value comes out right only because the field was
    zeroed when the buffer was destroyed just before (lines 527 and 615).
- `ber_pvt_sb_grow_buffer` grows to exactly the requested size, and allocation is a
  size limit. liblber's own growth policy is not part of this model.
- Adapter.Flush: `ber_pvt_sb_do_write` belongs to liblber and is not part of this
  model. `Flush` follows liblber's definition of it.
  - It makes one write of every pending byte. A result of 0 or less is returned
    as it is, and nothing is sent.
  - Otherwise the cursor advances past what the transport took. A partial send
    returns -1, as if nothing had been sent, and the rest stays pending for the
    next write.
  - The transport appears as the script of its return values after any EINTR
    retry, so the retry itself is not modelled.
  - liblber resets both cursors to 0 once everything is sent. The model leaves
    them equal where they are, which leaves the same, empty, pending bytes.
- Adapter.Read: the decode-failure exit (lines 576-583) keeps the source's
  behaviour and returns -1 with EIO, even when queued bytes were already handed
  out in the same call.
  - A read returns either a count or an error, and the undecodable frame has
    already been dropped.
  - Returning the count instead would hide the failure from the caller. The
    bytes are in the caller's buffer but not reported.
- ErrorMap.Classify: SASL_FAIL is classified as a local failure, not an
  authentication failure, because `sasl_err2ldap` maps it to LOCAL_ERROR
  (lines 681-682).
- Callbacks.GetSimple: identities are Dafny strings, so a reported length counts
  characters, not the octets `strlen` counts before the first NUL (line 955).
  Embedded NULs and multibyte encodings are not modelled.
- Callbacks.Ask: `ldap_pvt_sasl_getsecret` is not modelled, so the passphrase
  entry of a callback table answers nothing.
- Adapter.Setup: the allocation of the layer's private record and the leak of it
  when the staging buffer cannot be grown are not modelled. Only the staging
  buffer's allocation decides success.
- `errno` is a global only in the source. The model returns it inside the read
  result, and the write path's errno is not modelled.
- Blocking is not modelled: a read from an exhausted script returns end of stream
  (0) instead of waiting for more bytes.
- MechList.ArrayToStr: does not model the `int` overflow of the first pass for
  lists whose total length exceeds `INT_MAX`. Names are strings, and C's NUL
  termination is the trailing `'\0'`.
- Options.GetOption: `sasl_ssf_t` is unsigned and the option argument is an
  `int`, and the model does not model that conversion: strength factors are natural
  numbers and the bounds are integers.
- Logging (`ber_log_printf`, `Debug`) is not modelled.

## Findings

| source | as written | input that shows it | evidently intended | confidence | as-written member | corrected member |
|---|---|---|---|---|---|---|
| libraries/libldap/sasl.c:530-541 | Every header read is stored at `buf_base`, not at `buf_base + buf_ptr`, while `buf_ptr` still advances. | Staging empty and the header [0,0,0,5] arriving as reads [0,0] then [0,5]. As written it is staged as [0,5] followed by the storage's old bytes 2-3, which is clamped to a 20-byte frame instead of 9 whatever those bytes were (`AsWritten.SplitHeaderMisread`). | Each read lands at the write cursor, so the staged header is the four bytes that arrived. | high (not executed) | AsWritten.FillHeaderAsWritten | Adapter.FillTo |
| libraries/libldap/sasl.c:519-552 | After queued decrypted bytes are copied to the caller and the queue is destroyed, a transport result of 0 or -1 (lines 537-538, 566-567), or the -1 of a failed buffer growth (lines 548-551), is returned. The caller is told nothing was read. | Queue holding [7,7], a 5-byte request, then EAGAIN. As written: -1, with [7,7] in the caller's buffer and the queue empty (`AsWritten.PendingBytesDropped`). A freshly set-up layer with the same queue and request, receiving the header of a 5004-byte frame when only 4096 bytes can be allocated, gives -1 with ENOMEM (`AsWritten.PendingBytesDroppedNoMemory`). | Return the count already copied when it is non-zero. The next read then meets the transport or the allocator afresh, with nothing lost. | medium (not executed) | AsWritten.ReadAsWritten | Adapter.Read |

=== FILE: adapter.dfy ===
/** The SASL security layer pushed onto a connection's Sockbuf once a bind
    has negotiated a non-zero security strength factor (sb_sasl_setup,
    sb_sasl_read, sb_sasl_write and sb_sasl_ctrl in libraries/libldap/sasl.c).
    The negotiated context's sasl_encode and sasl_decode are parameters; the
    transport below is a script (module Transport). */
module Adapter {
  import opened Basics
  import opened Frame
  import opened Buffers
  import opened Transport

  /** The negotiated context's sasl_encode and sasl_decode, either of which
      may fail.  Decoding is handed the whole packet, header included. */
  datatype Codec = Codec(encode: seq<byte> -> Option<seq<byte>>, decode: seq<byte> -> Option<seq<byte>>)

  /** struct sb_sasl_data without the context: encrypted-input staging,
      decrypted-input ready queue, encrypted-output staging. */
  datatype SaslData = SaslData(secIn: Buf, bufIn: Buf, bufOut: Buf)

  predicate Valid(s: SaslData)
  {
    Staging(s.secIn) && Readable(s.bufIn) && Readable(s.bufOut)
  }

  /** sb_sasl_setup: three empty buffers, the staging one grown to its
      initial capacity; fails when that allocation fails. */
  function Setup(heap: Heap): (r: Option<SaslData>)
    ensures r.Some? <==> MinBuffSize <= heap.limit
    ensures r.Some? ==> Valid(r.value) && |r.value.secIn.base| == MinBuffSize
    ensures r.Some? ==> Staged(r.value.secIn) == [] && Pending(r.value.bufIn) == [] && Pending(r.value.bufOut) == []
  {
    match Grow(Empty, MinBuffSize, heap)
    case None => None
    case Some(b) => Some(SaslData(b, Empty, Empty))
  }

  /** Every byte the reader has yet to consume: what is staged, then what
      the transport will still deliver. */
  function Arriving(b: Buf, script: seq<Arrival>): seq<byte>
    requires b.ptr <= |b.base|
  {
    Staged(b) + Stream(script)
  }

  /** The size of the frame at the head of `all`, header included. */
  function FrameEnd(all: seq<byte>): nat
    requires HeaderLen <= |all|
  {
    PktLength(all[..HeaderLen])
  }

  lemma SplitConcat(x: seq<byte>, y: seq<byte>, n: nat)
    requires n <= |x|
    ensures (x + y)[..n] == x[..n]
    ensures (x + y)[n..] == x[n..] + y
  {
  }

  datatype Fill =
    | Reached(buf: Buf, rest: seq<Arrival>)
    | Stopped(result: IoResult, buf: Buf, rest: seq<Arrival>)

  /** One receive of a staging loop that still lacks bytes: either the
      loop goes round again, after an interruption or with the bytes received
      appended at the write cursor, or it ends with the transport's result. */
  datatype Pass = Again(buf: Buf, rest: seq<Arrival>) | Done(fill: Fill)

  /** A pass whose transport read returns bytes: as many of the chunk at
      the head of the script as are still missing are appended at the write
      cursor. */
  function ReceiveChunk(b: Buf, target: nat, script: seq<Arrival>): (p: Pass)
    requires b.ptr < target <= |b.base|
    requires script != [] && script[0].Bytes? && script[0].chunk != []
    ensures p.Again? && |p.buf.base| == |b.base| && p.buf.end == b.end && b.ptr <= p.buf.ptr <= target
    ensures Arriving(p.buf, p.rest) == Arriving(b, script) && Weight(p.rest) < Weight(script)
    ensures Staged(p.buf) == Staged(b) + script[0].chunk[..Min(|script[0].chunk|, target - b.ptr)]
  {
    var got := Recv(script, target - b.ptr);
    RecvHead(script, target - b.ptr);
    var next := Append(b, got.bytes);
    AppendThenRest(b, got.bytes, Stream(got.rest));
    Again(next, got.rest)
  }

  function FillPass(b: Buf, target: nat, script: seq<Arrival>): (p: Pass)
    requires b.ptr < target <= |b.base|
    ensures p.Again? ==>
      && |p.buf.base| == |b.base| && p.buf.end == b.end && b.ptr <= p.buf.ptr <= target
      && Arriving(p.buf, p.rest) == Arriving(b, script) && Weight(p.rest) < Weight(script)
    ensures p.Done? ==>
      && p.fill.Stopped? && p.fill.buf == b && Arriving(b, p.fill.rest) == Arriving(b, script)
      && (p.fill.result == Count(0) || (p.fill.result.Fail? && p.fill.result.errno != EINTR))
    ensures script != [] && script[0] == Error(EINTR) ==> p == Again(b, script[1..])
    ensures script != [] && script[0].Error? && script[0].errno != EINTR ==>
      p == Done(Stopped(Fail(script[0].errno), b, script[1..]))
    ensures script == [] || script[0] == Bytes([]) ==>
      p == Done(Stopped(Count(0), b, if script == [] then [] else script[1..]))
    ensures script != [] && script[0].Bytes? && script[0].chunk != [] ==>
      var n := Min(|script[0].chunk|, target - b.ptr);
      p.Again? && Staged(p.buf) == Staged(b) + script[0].chunk[..n]
  {
    if script == [] then Done(Stopped(Count(0), b, []))
    else if script[0].Bytes? && script[0].chunk != [] then ReceiveChunk(b, target, script)
    else
      assert Stream(script) == Stream(script[1..]) && Weight(script[1..]) < Weight(script);
      match script[0]
      case Error(e) =>
        if e == EINTR then Again(b, script[1..])
        else Done(Stopped(Fail(e), b, script[1..]))
      case Bytes(_) => Done(Stopped(Count(0), b, script[1..]))
  }

  /** On a live stream a pass ends the loop only at end of stream, and
      leaves a live stream when it goes round again. */
  lemma FillPassLive(b: Buf, target: nat, script: seq<Arrival>)
    requires b.ptr < target <= |b.base|
    ensures var p := FillPass(b, target, script);
      Live(script) ==>
        && (p.Again? ==> Live(p.rest))
        && (p.Done? ==> script == [] && p.fill.result == Count(0) && p.fill.rest == [])
  {
    RecvLive(script, target - b.ptr);
  }

  /** The accumulation loops of sb_sasl_read, as they were evidently meant:
      read into the staging buffer at its write cursor until `target` bytes
      are staged, retrying a read interrupted by EINTR and stopping at any
      other error or at end of stream. */
  function FillTo(b: Buf, target: nat, script: seq<Arrival>): (r: Fill)
    requires b.ptr <= |b.base| && target <= |b.base|
    ensures |r.buf.base| == |b.base| && r.buf.end == b.end
    ensures r.buf.ptr <= Max(b.ptr, target)
    ensures Arriving(r.buf, r.rest) == Arriving(b, script)
    ensures r.Reached? <==> target <= r.buf.ptr
    ensures r.Stopped? ==> r.result == Count(0) || (r.result.Fail? && r.result.errno != EINTR)
    ensures Live(script) ==> Live(r.rest)
    ensures Live(script) && r.Stopped? ==> r.result == Count(0) && |Arriving(b, script)| < target
    decreases Weight(script)
  {
    if target <= b.ptr then Reached(b, script)
    else
      FillPassLive(b, target, script);
      match FillPass(b, target, script)
      case Done(f) => f
      case Again(next, rest) => FillTo(next, target, rest)
  }

  /** How the staging loops treat what the transport reports while bytes
      are still missing: a read interrupted by EINTR is reissued as if it had
      not happened; any other error, and end of stream, ends the loop with
      the transport's own result and nothing else consumed. */
  lemma TransportResultsHandled(b: Buf, target: nat, e: Errno, script: seq<Arrival>)
    requires b.ptr < target <= |b.base|
    ensures FillTo(b, target, [Error(EINTR)] + script) == FillTo(b, target, script)
    ensures e != EINTR ==> FillTo(b, target, [Error(e)] + script) == Stopped(Fail(e), b, script)
    ensures FillTo(b, target, [Bytes([])] + script) == Stopped(Count(0), b, script)
    ensures FillTo(b, target, []) == Stopped(Count(0), b, [])
  {
    assert ([Error(EINTR)] + script)[1..] == script;
    assert ([Error(e)] + script)[1..] == script;
    assert ([Bytes([])] + script)[1..] == script;
  }

  /** Which return statement of sb_sasl_read a call ended at. */
  datatype ReadExit = FastPath | TransportStopped | NoMemory | DecodeFailed | Decoded

  /** The outcome of a read: the value returned, the bytes placed in the
      caller's buffer, and the new layer and transport state. */
  datatype ReadStep = ReadStep(exit: ReadExit, result: IoResult, out: seq<byte>, data: SaslData, rest: seq<Arrival>)

  /** Lines 548-570 of sb_sasl_read: size the frame from the staged header,
      grow the staging buffer to hold it, and read until the whole frame is
      staged.  None when the buffer cannot be grown. */
  function ReceiveFrame(b: Buf, script: seq<Arrival>, heap: Heap): (r: Option<Fill>)
    requires Staging(b) && HeaderLen <= b.ptr
    ensures var size := PktLength(b.base[..HeaderLen]);
      r.None? <==> |b.base| < size && heap.limit < size
    ensures var size := PktLength(b.base[..HeaderLen]);
      r.Some? ==> |r.value.buf.base| == Max(|b.base|, size)
    ensures r.Some? ==>
      && Staging(r.value.buf) && |r.value.buf.base| <= Max(|b.base|, MaxPacket)
      && Arriving(r.value.buf, r.value.rest) == Arriving(b, script)
      && r.value.buf.end == PktLength(b.base[..HeaderLen])
      && (r.value.Reached? ==> r.value.buf.end <= r.value.buf.ptr)
      && (r.value.Stopped? ==> r.value.result == Count(0) || (r.value.result.Fail? && r.value.result.errno != EINTR))
      && (Live(script) ==> Live(r.value.rest))
      && (Live(script) && r.value.Stopped? ==> r.value.result == Count(0) && |Arriving(b, script)| < r.value.buf.end)
  {
    var size := PktLength(b.base[..HeaderLen]);
    var grown := if |b.base| < size then Grow(b, size, heap) else Some(b);
    if grown.None? then None
    else
      var sized := grown.value.(end := size);
      assert Staged(sized) == Staged(b);
      Some(FillTo(sized, size, script))
  }

  /** Dropping a fully staged frame consumes exactly that frame from the
      front of what is arriving. */
  lemma DropConserves(b: Buf, rest: seq<Arrival>)
    requires Staging(b) && b.end <= b.ptr
    ensures var all := Arriving(b, rest);
      && b.end <= |all| && b.base[..b.end] == all[..b.end]
      && Staging(DropPacket(b))
      && Arriving(DropPacket(b), rest) == all[b.end..]
  {
    SplitConcat(Staged(b), Stream(rest), b.end);
    assert b.base[..b.end] == Staged(b)[..b.end];
  }

  /** Lines 572-593 of sb_sasl_read: decode the staged frame `[0, end)`,
      drop it from the staging buffer, and copy up to `want` decrypted bytes
      out after the `delivered` ones. */
  function DecodeFrame(codec: Codec, s: SaslData, b: Buf, rest: seq<Arrival>, delivered: seq<byte>, want: nat): (r: ReadStep)
    requires Valid(s) && Pending(s.bufIn) == []
    requires Staging(b) && b.end <= b.ptr
    ensures delivered <= r.out
    ensures Valid(r.data) && r.data.bufOut == s.bufOut && r.rest == rest
    ensures |r.data.secIn.base| == |b.base|
    ensures r.exit == DecodeFailed || r.exit == Decoded
    ensures var all := Arriving(b, rest);
      && b.end <= |all|
      && Arriving(r.data.secIn, rest) == all[b.end..]
      && (r.exit == DecodeFailed <==> codec.decode(all[..b.end]).None?)
    ensures r.exit == DecodeFailed ==>
      r.result == Fail(EIO) && r.out == delivered && Pending(r.data.bufIn) == []
    ensures var all := Arriving(b, rest);
      r.exit == Decoded ==>
        && codec.decode(all[..b.end]).Some?
        && var d := codec.decode(all[..b.end]).value;
        && r.out + Pending(r.data.bufIn) == delivered + d
        && |r.out| == |delivered| + Min(want, |d|)
        && r.result == Count(|r.out|)
  {
    DropConserves(b, rest);
    var all := Arriving(b, rest);
    assert codec.decode(all[..b.end]) == codec.decode(b.base[..b.end]);
    var dropped := DropPacket(b);
    match codec.decode(b.base[..b.end])
    case None =>
      ReadStep(DecodeFailed, Fail(EIO), delivered, s.(secIn := dropped), rest)
    case Some(d) =>
      var c := CopyOut(Holding(d), want);
      ReadStep(Decoded, Count(|delivered| + |c.out|), delivered + c.out,
               s.(secIn := dropped, bufIn := c.rest), rest)
  }

  /** The part of sb_sasl_read after the header is staged: receive the whole
      frame, then decode it. */
  function ReadPacket(codec: Codec, s: SaslData, script: seq<Arrival>, heap: Heap, delivered: seq<byte>, want: nat): (r: ReadStep)
    requires Valid(s) && HeaderLen <= s.secIn.ptr && Pending(s.bufIn) == []
    ensures delivered <= r.out
    ensures Valid(r.data) && r.data.bufOut == s.bufOut
    ensures |r.data.secIn.base| <= Max(|s.secIn.base|, MaxPacket)
    ensures r.exit != FastPath && r.result != Fail(EINTR)
    ensures Live(script) ==> Live(r.rest)
    ensures HeaderLen <= |Arriving(s.secIn, script)|
    ensures var all := Arriving(s.secIn, script);
      r.exit == TransportStopped ==>
        && Arriving(r.data.secIn, r.rest) == all
        && r.out == delivered && Pending(r.data.bufIn) == []
        && (r.result == Count(0) || r.result.Fail?)
        && (Live(script) ==> r.result == Count(0) && |all| < FrameEnd(all))
    ensures var all := Arriving(s.secIn, script);
      r.exit == NoMemory ==>
        && r.result == Fail(ENOMEM) && |s.secIn.base| < FrameEnd(all) && heap.limit < FrameEnd(all)
        && Arriving(r.data.secIn, r.rest) == all
        && r.out == delivered && Pending(r.data.bufIn) == []
    ensures var all := Arriving(s.secIn, script);
      r.exit == DecodeFailed ==>
        && FrameEnd(all) <= |all| && codec.decode(all[..FrameEnd(all)]).None?
        && r.result == Fail(EIO)
        && Arriving(r.data.secIn, r.rest) == all[FrameEnd(all)..]
        && r.out == delivered && Pending(r.data.bufIn) == []
    ensures var all := Arriving(s.secIn, script);
      r.exit == Decoded ==>
        && FrameEnd(all) <= |all| && codec.decode(all[..FrameEnd(all)]).Some?
        && Arriving(r.data.secIn, r.rest) == all[FrameEnd(all)..]
        && var d := codec.decode(all[..FrameEnd(all)]).value;
        && r.out + Pending(r.data.bufIn) == delivered + d
        && |r.out| == |delivered| + Min(want, |d|)
        && r.result == Count(|r.out|)
  {
    SplitConcat(Staged(s.secIn), Stream(script), HeaderLen);
    assert s.secIn.base[..HeaderLen] == Arriving(s.secIn, script)[..HeaderLen];
    match ReceiveFrame(s.secIn, script, heap)
    case None => ReadStep(NoMemory, Fail(ENOMEM), delivered, s, script)
    case Some(Stopped(res, b, rest)) => ReadStep(TransportStopped, res, delivered, s.(secIn := b), rest)
    case Some(Reached(b, rest)) => DecodeFrame(codec, s, b, rest, delivered, want)
  }

  /** Lines 527-593 of sb_sasl_read, entered with the ready queue emptied
      and `delivered` already handed to the caller: stage a header, then
      receive and decode the frame it announces.  A transport stop is
      reported with the transport's own result. */
  function ReadSlow(codec: Codec, s: SaslData, script: seq<Arrival>, heap: Heap, delivered: seq<byte>, want: nat): (r: ReadStep)
    requires Valid(s) && Pending(s.bufIn) == []
    ensures delivered <= r.out
    ensures Valid(r.data) && r.data.bufOut == s.bufOut
    ensures |r.data.secIn.base| <= Max(|s.secIn.base|, MaxPacket)
    ensures r.exit != FastPath && r.result != Fail(EINTR)
    ensures Live(script) ==> Live(r.rest)
    ensures var all := Arriving(s.secIn, script);
      r.exit == TransportStopped ==>
        && Arriving(r.data.secIn, r.rest) == all
        && r.out == delivered && Pending(r.data.bufIn) == []
        && (r.result == Count(0) || r.result.Fail?)
        && (Live(script) ==> r.result == Count(0) && (|all| < HeaderLen || |all| < FrameEnd(all)))
    ensures var all := Arriving(s.secIn, script);
      r.exit != TransportStopped ==> HeaderLen <= |all|
    ensures var all := Arriving(s.secIn, script);
      r.exit == NoMemory ==>
        && HeaderLen <= |all| && r.result == Fail(ENOMEM)
        && |s.secIn.base| < FrameEnd(all) && heap.limit < FrameEnd(all)
        && Arriving(r.data.secIn, r.rest) == all
        && r.out == delivered && Pending(r.data.bufIn) == []
    ensures var all := Arriving(s.secIn, script);
      r.exit == DecodeFailed ==>
        && HeaderLen <= |all| && FrameEnd(all) <= |all|
        && codec.decode(all[..FrameEnd(all)]).None? && r.result == Fail(EIO)
        && Arriving(r.data.secIn, r.rest) == all[FrameEnd(all)..]
        && r.out == delivered && Pending(r.data.bufIn) == []
    ensures var all := Arriving(s.secIn, script);
      r.exit == Decoded ==>
        && HeaderLen <= |all| && FrameEnd(all) <= |all|
        && codec.decode(all[..FrameEnd(all)]).Some?
        && Arriving(r.data.secIn, r.rest) == all[FrameEnd(all)..]
        && var d := codec.decode(all[..FrameEnd(all)]).value;
        && r.out + Pending(r.data.bufIn) == delivered + d
        && |r.out| == |delivered| + Min(want, |d|)
        && r.result == Count(|r.out|)
  {
    match FillTo(s.secIn, HeaderLen, script)
    case Stopped(res, b, rest) => ReadStep(TransportStopped, res, delivered, s.(secIn := b), rest)
    case Reached(b, rest) => ReadPacket(codec, s.(secIn := b), rest, heap, delivered, want)
  }

  /** What a read reports when it stops short of a frame after `delivered`
      bytes were already taken from the ready queue: those bytes, if any,
      else the failure itself. */
  function KeepDelivered(res: IoResult, delivered: seq<byte>): IoResult
  {
    if delivered == [] then res else Count(|delivered|)
  }

  /** ReadSlow, except that a transport stop or a failed allocation after
      `delivered` bytes were handed out reports those bytes rather than the
      failure, which the next read meets again with nothing lost. */
  function ReadKeeping(codec: Codec, s: SaslData, script: seq<Arrival>, heap: Heap, delivered: seq<byte>, want: nat): (r: ReadStep)
    requires Valid(s) && Pending(s.bufIn) == []
    ensures Valid(r.data) && r.data.bufOut == s.bufOut
    ensures |r.data.secIn.base| <= Max(|s.secIn.base|, MaxPacket)
    ensures r.exit != FastPath && r.result != Fail(EINTR)
    ensures Live(script) ==> Live(r.rest)
    ensures delivered <= r.out
    ensures r.result.Count? ==> r.result.n == |r.out| <= |delivered| + want
    ensures var all := Arriving(s.secIn, script);
      r.exit == TransportStopped ==>
        && Arriving(r.data.secIn, r.rest) == all
        && r.out == delivered && Pending(r.data.bufIn) == []
        && (delivered != [] ==> r.result == Count(|delivered|))
        && (delivered == [] ==> r.result == Count(0) || r.result.Fail?)
        && (Live(script) ==> r.result == Count(|delivered|) && (|all| < HeaderLen || |all| < FrameEnd(all)))
    ensures var all := Arriving(s.secIn, script);
      r.exit == NoMemory ==>
        && HeaderLen <= |all| && |s.secIn.base| < FrameEnd(all) && heap.limit < FrameEnd(all)
        && (delivered != [] ==> r.result == Count(|delivered|))
        && (delivered == [] ==> r.result == Fail(ENOMEM))
        && Arriving(r.data.secIn, r.rest) == all
        && r.out == delivered && Pending(r.data.bufIn) == []
    ensures var all := Arriving(s.secIn, script);
      r.exit == DecodeFailed ==>
        && HeaderLen <= |all| && FrameEnd(all) <= |all|
        && codec.decode(all[..FrameEnd(all)]).None? && r.result == Fail(EIO)
        && Arriving(r.data.secIn, r.rest) == all[FrameEnd(all)..]
        && r.out == delivered && Pending(r.data.bufIn) == []
    ensures var all := Arriving(s.secIn, script);
      r.exit == Decoded ==>
        && HeaderLen <= |all| && FrameEnd(all) <= |all|
        && codec.decode(all[..FrameEnd(all)]).Some?
        && Arriving(r.data.secIn, r.rest) == all[FrameEnd(all)..]
        && var d := codec.decode(all[..FrameEnd(all)]).value;
        && r.out + Pending(r.data.bufIn) == delivered + d
        && |r.out| == |delivered| + Min(want, |d|)
        && r.result == Count(|r.out|)
  {
    var slow := ReadSlow(codec, s, script, heap, delivered, want);
    var kept := slow.exit == TransportStopped || slow.exit == NoMemory;
    ReadStep(slow.exit, if kept then KeepDelivered(slow.result, delivered) else slow.result,
             slow.out, slow.data, slow.rest)
  }

  /** The corrected read once the queue cannot satisfy the request: the
      queued bytes are handed out, then one frame is staged and decoded. */
  function ReadQueued(codec: Codec, s: SaslData, script: seq<Arrival>, heap: Heap, len: nat): (r: ReadStep)
    requires Valid(s) && |Pending(s.bufIn)| < len
    ensures Valid(r.data) && r.data.bufOut == s.bufOut
    ensures |r.data.secIn.base| <= Max(|s.secIn.base|, MaxPacket)
    ensures r.result != Fail(EINTR)
    ensures r.result.Count? ==> r.result.n == |r.out| <= len
    ensures Live(script) ==> Live(r.rest)
    ensures r.exit != FastPath && Pending(s.bufIn) <= r.out
    ensures var all := Arriving(s.secIn, script);
      r.exit == TransportStopped ==>
        && Arriving(r.data.secIn, r.rest) == all
        && r.out == Pending(s.bufIn) && Pending(r.data.bufIn) == []
        && (Pending(s.bufIn) != [] ==> r.result == Count(|Pending(s.bufIn)|))
        && (Pending(s.bufIn) == [] ==> r.result == Count(0) || r.result.Fail?)
        && (Live(script) ==> r.result == Count(|Pending(s.bufIn)|) && (|all| < HeaderLen || |all| < FrameEnd(all)))
    ensures var all := Arriving(s.secIn, script);
      r.exit == NoMemory ==>
        && HeaderLen <= |all| && |s.secIn.base| < FrameEnd(all) && heap.limit < FrameEnd(all)
        && (Pending(s.bufIn) != [] ==> r.result == Count(|Pending(s.bufIn)|))
        && (Pending(s.bufIn) == [] ==> r.result == Fail(ENOMEM))
        && Arriving(r.data.secIn, r.rest) == all
        && r.out == Pending(s.bufIn) && Pending(r.data.bufIn) == []
    ensures var all := Arriving(s.secIn, script);
      r.exit == DecodeFailed ==>
        && HeaderLen <= |all| && FrameEnd(all) <= |all|
        && codec.decode(all[..FrameEnd(all)]).None? && r.result == Fail(EIO)
        && Arriving(r.data.secIn, r.rest) == all[FrameEnd(all)..]
        && r.out == Pending(s.bufIn) && Pending(r.data.bufIn) == []
    ensures var all := Arriving(s.secIn, script);
      r.exit == Decoded ==>
        && HeaderLen <= |all| && FrameEnd(all) <= |all|
        && codec.decode(all[..FrameEnd(all)]).Some?
        && Arriving(r.data.secIn, r.rest) == all[FrameEnd(all)..]
        && var d := codec.decode(all[..FrameEnd(all)]).value;
        && r.out + Pending(r.data.bufIn) == Pending(s.bufIn) + d
        && |r.out| == Min(len, |Pending(s.bufIn)| + |d|)
        && r.result == Count(|r.out|)
  {
    var emptied := s.(bufIn := Empty);
    var delivered := Pending(s.bufIn);
    assert emptied.secIn == s.secIn && emptied.bufOut == s.bufOut;
    assert |delivered| + (len - |delivered|) == len;
    ReadKeeping(codec, emptied, script, heap, delivered, len - |delivered|)
  }

  /** sb_sasl_read with its two defects corrected (see AsWritten): serve the
      caller from the decrypted-input queue; when that is not enough, stage
      one whole frame from the transport, decode it and serve the rest from
      it. */
  function Read(codec: Codec, s: SaslData, script: seq<Arrival>, heap: Heap, len: nat): (r: ReadStep)
    requires Valid(s)
    ensures Valid(r.data) && r.data.bufOut == s.bufOut
    ensures |r.data.secIn.base| <= Max(|s.secIn.base|, MaxPacket)
    ensures r.result != Fail(EINTR)
    ensures r.result.Count? ==> r.result.n == |r.out| <= len
    ensures Live(script) ==> Live(r.rest)
    ensures r.exit == FastPath <==> len <= |Pending(s.bufIn)|
    ensures r.exit == FastPath ==>
      && r.result == Count(len) && r.out + Pending(r.data.bufIn) == Pending(s.bufIn)
      && r.rest == script && r.data.secIn == s.secIn
    ensures r.exit != FastPath ==> Pending(s.bufIn) <= r.out
    ensures var all := Arriving(s.secIn, script);
      r.exit == TransportStopped ==>
        && Arriving(r.data.secIn, r.rest) == all
        && r.out == Pending(s.bufIn) && Pending(r.data.bufIn) == []
        && (Pending(s.bufIn) != [] ==> r.result == Count(|Pending(s.bufIn)|))
        && (Pending(s.bufIn) == [] ==> r.result == Count(0) || r.result.Fail?)
        && (Live(script) ==> r.result == Count(|Pending(s.bufIn)|) && (|all| < HeaderLen || |all| < FrameEnd(all)))
    ensures var all := Arriving(s.secIn, script);
      r.exit == NoMemory ==>
        && HeaderLen <= |all| && |s.secIn.base| < FrameEnd(all) && heap.limit < FrameEnd(all)
        && (Pending(s.bufIn) != [] ==> r.result == Count(|Pending(s.bufIn)|))
        && (Pending(s.bufIn) == [] ==> r.result == Fail(ENOMEM))
        && Arriving(r.data.secIn, r.rest) == all
        && r.out == Pending(s.bufIn) && Pending(r.data.bufIn) == []
    ensures var all := Arriving(s.secIn, script);
      r.exit == DecodeFailed ==>
        && HeaderLen <= |all| && FrameEnd(all) <= |all|
        && codec.decode(all[..FrameEnd(all)]).None? && r.result == Fail(EIO)
        && Arriving(r.data.secIn, r.rest) == all[FrameEnd(all)..]
        && r.out == Pending(s.bufIn) && Pending(r.data.bufIn) == []
    ensures var all := Arriving(s.secIn, script);
      r.exit == Decoded ==>
        && HeaderLen <= |all| && FrameEnd(all) <= |all|
        && codec.decode(all[..FrameEnd(all)]).Some?
        && Arriving(r.data.secIn, r.rest) == all[FrameEnd(all)..]
        && var d := codec.decode(all[..FrameEnd(all)]).value;
        && r.out + Pending(r.data.bufIn) == Pending(s.bufIn) + d
        && |r.out| == Min(len, |Pending(s.bufIn)| + |d|)
        && r.result == Count(|r.out|)
  {
    var first := CopyOut(s.bufIn, len);
    if |first.out| == len then
      ReadStep(FastPath, Count(len), first.out, s.(bufIn := first.rest), script)
    else
      ReadQueued(codec, s, script, heap, len)
  }

  /** A read that needs a header from the transport treats an EINTR as if
      the transport had not reported it. */
  lemma ReadRetriesInterrupt(codec: Codec, s: SaslData, script: seq<Arrival>, heap: Heap, len: nat)
    requires Valid(s) && s.secIn.ptr < HeaderLen && |Pending(s.bufIn)| < len
    ensures Read(codec, s, [Error(EINTR)] + script, heap, len) == Read(codec, s, script, heap, len)
  {
    TransportResultsHandled(s.secIn, HeaderLen, EINTR, script);
  }

  /** Any other transport error while a header is missing ends the read
      with that error, or with the count of the queued bytes already handed
      out, consuming nothing but the error and keeping what was staged. */
  lemma ReadReturnsTransportError(codec: Codec, s: SaslData, e: Errno, script: seq<Arrival>, heap: Heap, len: nat)
    requires Valid(s) && s.secIn.ptr < HeaderLen && |Pending(s.bufIn)| < len && e != EINTR
    ensures var r := Read(codec, s, [Error(e)] + script, heap, len);
      && r.exit == TransportStopped && r.rest == script && r.data.secIn == s.secIn
      && r.out == Pending(s.bufIn) && Pending(r.data.bufIn) == []
      && r.result == (if Pending(s.bufIn) == [] then Fail(e) else Count(|Pending(s.bufIn)|))
  {
    TransportResultsHandled(s.secIn, HeaderLen, e, script);
  }

  /** With the header staged and room for the frame it announces, a
      transport report while the body is still incomplete is handled as
      during the header: EINTR is retried, and any other error ends the
      staging with that error, consuming nothing else. */
  lemma FrameTransportResults(b: Buf, e: Errno, script: seq<Arrival>, heap: Heap)
    requires Staging(b) && HeaderLen <= b.ptr < PktLength(b.base[..HeaderLen])
    requires PktLength(b.base[..HeaderLen]) <= Max(|b.base|, heap.limit)
    ensures ReceiveFrame(b, [Error(EINTR)] + script, heap) == ReceiveFrame(b, script, heap)
    ensures var f := ReceiveFrame(b, [Error(e)] + script, heap);
      e != EINTR ==>
        f.Some? && f.value.Stopped? && f.value.result == Fail(e) && f.value.rest == script
        && Staged(f.value.buf) == Staged(b)
  {
    var size := PktLength(b.base[..HeaderLen]);
    var grown := if |b.base| < size then Grow(b, size, heap).value else b;
    assert Staged(grown.(end := size)) == Staged(b);
    TransportResultsHandled(grown.(end := size), size, e, script);
  }

  /** Once the header is staged and the buffer holds, or can be grown to
      hold, the frame it announces, a read treats an EINTR met while the body
      is incomplete as if the transport had not reported it. */
  lemma BodyRetriesInterrupt(codec: Codec, s: SaslData, script: seq<Arrival>, heap: Heap, len: nat)
    requires Valid(s) && |Pending(s.bufIn)| < len
    requires HeaderLen <= s.secIn.ptr < PktLength(s.secIn.base[..HeaderLen])
    requires PktLength(s.secIn.base[..HeaderLen]) <= Max(|s.secIn.base|, heap.limit)
    ensures Read(codec, s, [Error(EINTR)] + script, heap, len) == Read(codec, s, script, heap, len)
  {
    FrameTransportResults(s.secIn, EINTR, script, heap);
  }

  /** In the same state, any other transport error ends the read with that
      error, or with the count of the queued bytes already handed out,
      consuming nothing but the error and keeping what was staged. */
  lemma BodyReturnsTransportError(codec: Codec, s: SaslData, e: Errno, script: seq<Arrival>, heap: Heap, len: nat)
    requires Valid(s) && |Pending(s.bufIn)| < len && e != EINTR
    requires HeaderLen <= s.secIn.ptr < PktLength(s.secIn.base[..HeaderLen])
    requires PktLength(s.secIn.base[..HeaderLen]) <= Max(|s.secIn.base|, heap.limit)
    ensures var r := Read(codec, s, [Error(e)] + script, heap, len);
      && r.exit == TransportStopped && r.rest == script && Staged(r.data.secIn) == Staged(s.secIn)
      && r.out == Pending(s.bufIn) && Pending(r.data.bufIn) == []
      && r.result == (if Pending(s.bufIn) == [] then Fail(e) else Count(|Pending(s.bufIn)|))
  {
    FrameTransportResults(s.secIn, e, script, heap);
  }

  /** What a flush of the encrypted-output buffer returned, as liblber's
      ber_pvt_sb_do_write (not part of this model) reports it.  The
      transport below is seen through its successive return values in
      `script`, each taken after any EINTR retry: a positive value is a
      count of bytes the transport took (never more than were offered),
      anything else a failure. */
  datatype Flushed = Flushed(ret: int, wire: seq<byte>, buf: Buf, rest: seq<int>)

  /** ber_pvt_sb_do_write: offer every pending byte once; a failure is
      returned as it is and sends nothing; otherwise the cursor advances
      past what was taken, and a partial send is reported as -1, as if
      nothing had been sent, while a complete one reports its count. */
  function Flush(b: Buf, script: seq<int>): (f: Flushed)
    requires Readable(b)
    ensures Readable(f.buf) && f.buf.base == b.base && f.buf.end == b.end
    ensures f.wire + Pending(f.buf) == Pending(b)
    ensures f.rest == if script == [] then [] else script[1..]
    ensures script == [] || script[0] <= 0 ==>
      f.ret == (if script == [] then 0 else script[0]) && f.wire == [] && f.buf == b
    ensures script != [] && 0 < script[0] ==> |f.wire| == Min(script[0], |Pending(b)|)
    ensures 0 < f.ret ==> f.ret == |f.wire| && Pending(f.buf) == []
    ensures f.wire != [] && Pending(f.buf) != [] ==> f.ret == -1
  {
    var v := if script == [] then 0 else script[0];
    var rest := if script == [] then [] else script[1..];
    if v <= 0 then Flushed(v, [], b, rest)
    else
      var n := Min(v, b.end - b.ptr);
      assert Pending(b) == b.base[b.ptr..b.ptr + n] + b.base[b.ptr + n..b.end];
      Flushed(if n < b.end - b.ptr then -1 else n, b.base[b.ptr..b.ptr + n], b.(ptr := b.ptr + n), rest)
  }

  /** The flush of a still-unsent earlier packet that opens every write; a
      no-op when nothing is pending. */
  function Backlog(s: SaslData, script: seq<int>): (f: Flushed)
    requires Valid(s)
    ensures Readable(f.buf) && f.wire + Pending(f.buf) == Pending(s.bufOut)
    ensures Pending(s.bufOut) == [] ==> f == Flushed(0, [], s.bufOut, script)
    ensures Pending(s.bufOut) != [] ==> f == Flush(s.bufOut, script)
  {
    if Pending(s.bufOut) == [] then Flushed(0, [], s.bufOut, script) else Flush(s.bufOut, script)
  }

  /** An earlier packet is pending and could not be flushed whole. */
  predicate Blocked(s: SaslData, script: seq<int>)
    requires Valid(s)
  {
    Pending(s.bufOut) != [] && Flush(s.bufOut, script).ret <= 0
  }

  /** The outcome of a write: the value returned, the bytes handed to the
      transport, whether a new packet was encoded, and the new state. */
  datatype WriteStep = WriteStep(ret: int, wire: seq<byte>, encoded: bool, data: SaslData, rest: seq<int>)

  /** Lines 614-629 of sb_sasl_write, once nothing earlier is pending:
      discard the output buffer, encode the caller's data as one packet and
      flush it. */
  function SendPacket(codec: Codec, s: SaslData, script: seq<int>, data: seq<byte>): (r: WriteStep)
    requires Valid(s)
    ensures Valid(r.data) && r.data.secIn == s.secIn && r.data.bufIn == s.bufIn
    ensures r.encoded <==> codec.encode(data).Some?
    ensures !r.encoded ==> r.ret == -1 && r.wire == [] && Pending(r.data.bufOut) == []
    ensures r.encoded ==>
      var e := codec.encode(data).value;
      var sent := Flush(Holding(e), script);
      && r.wire == sent.wire && r.data.bufOut == sent.buf && r.rest == sent.rest
      && r.wire + Pending(r.data.bufOut) == e
      && (0 < sent.ret ==> r.ret == |data| && Pending(r.data.bufOut) == [])
      && (sent.ret <= 0 ==> r.ret == sent.ret)
  {
    match codec.encode(data)
    case None => WriteStep(-1, [], false, s.(bufOut := Empty), script)
    case Some(e) =>
      var sent := Flush(Holding(e), script);
      WriteStep(if sent.ret <= 0 then sent.ret else |data|, sent.wire, true, s.(bufOut := sent.buf), sent.rest)
  }

  /** sb_sasl_write: flush any pending packet; unless that stops short,
      encode the caller's data as one new packet and flush it. */
  function Write(codec: Codec, s: SaslData, script: seq<int>, data: seq<byte>): (r: WriteStep)
    requires Valid(s)
    ensures Valid(r.data) && r.data.secIn == s.secIn && r.data.bufIn == s.bufIn
    ensures Blocked(s, script) ==>
      && !r.encoded && r.ret <= 0 && r.ret == Flush(s.bufOut, script).ret
      && r.wire == Flush(s.bufOut, script).wire && r.data.bufOut == Flush(s.bufOut, script).buf
      && r.wire + Pending(r.data.bufOut) == Pending(s.bufOut)
    ensures !Blocked(s, script) ==> Backlog(s, script).wire == Pending(s.bufOut)
    ensures r.encoded <==> !Blocked(s, script) && codec.encode(data).Some?
    ensures !Blocked(s, script) && codec.encode(data).None? ==>
      r.ret == -1 && r.wire == Pending(s.bufOut) && Pending(r.data.bufOut) == []
    ensures r.encoded ==>
      var e := codec.encode(data).value;
      var sent := Flush(Holding(e), Backlog(s, script).rest);
      && r.wire == Pending(s.bufOut) + sent.wire && r.data.bufOut == sent.buf
      && r.wire + Pending(r.data.bufOut) == Pending(s.bufOut) + e
      && (0 < sent.ret ==> r.ret == |data| && Pending(r.data.bufOut) == [])
      && (sent.ret <= 0 ==> r.ret == sent.ret)
  {
    var first := Backlog(s, script);
    if Blocked(s, script) then
      WriteStep(first.ret, first.wire, false, s.(bufOut := first.buf), first.rest)
    else
      var next := SendPacket(codec, s, first.rest, data);
      assert first.wire + next.wire + Pending(next.data.bufOut) == first.wire + (next.wire + Pending(next.data.bufOut));
      WriteStep(next.ret, first.wire + next.wire, next.encoded, next.data, next.rest)
  }

  /** The Sockbuf control options this layer distinguishes. */
  datatype SbOption = DataReady | OtherOption(code: int)

  /** sb_sasl_ctrl: data is ready when decrypted bytes are queued; every
      other question, and that one otherwise, is answered by the layer
      below, whose answer is `below`. */
  function Ctrl(s: SaslData, opt: SbOption, below: int): (r: int)
    requires Readable(s.bufIn)
    ensures opt == DataReady && Pending(s.bufIn) != [] ==> r == 1
    ensures opt != DataReady || Pending(s.bufIn) == [] ==> r == below
  {
    if opt == DataReady && s.bufIn.ptr != s.bufIn.end then 1 else below
  }

  /** The poll predicate is exact: whatever the layer below would answer,
      it reports ready data when a one-byte read is served without touching
      the transport, and defers to the layer below precisely when it is not. */
  lemma ReadyMeansServedLocally(codec: Codec, s: SaslData, script: seq<Arrival>, heap: Heap, below: int)
    requires Valid(s)
    ensures Read(codec, s, script, heap, 1).exit == FastPath ==>
      Ctrl(s, DataReady, below) == 1 && Read(codec, s, script, heap, 1).rest == script
    ensures Read(codec, s, script, heap, 1).exit != FastPath ==> Ctrl(s, DataReady, below) == below
  {
  }

  /** Reading a frame off a stream that starts with a well-framed packet
      consumes exactly that packet and hands out its decoding, whatever the
      packet's split into transport reads or their interruptions by EINTR. */
  lemma ReadOneFrame(codec: Codec, s: SaslData, script: seq<Arrival>, heap: Heap, p: seq<byte>, tail: seq<byte>, len: nat)
    requires Valid(s) && Pending(s.bufIn) == []
    requires Arriving(s.secIn, script) == p + tail
    requires WellFramed(p) && codec.decode(p).Some?
    requires Live(script) && MaxPacket <= heap.limit
    requires 0 < len && |codec.decode(p).value| <= len
    ensures var r := Read(codec, s, script, heap, len);
      && r.exit == Decoded && r.out == codec.decode(p).value && r.result == Count(|r.out|)
      && Pending(r.data.bufIn) == [] && Arriving(r.data.secIn, r.rest) == tail
  {
    var all := p + tail;
    FramedLength(p, tail);
    assert FrameEnd(all) == |p|;
    assert all[..|p|] == p && all[|p|..] == tail;
    var r := Read(codec, s, script, heap, len);
    assert r.exit != FastPath;
    assert r.exit != TransportStopped;
    assert r.exit != NoMemory;
    assert r.exit == Decoded;
    var d := codec.decode(p).value;
    assert r.out + Pending(r.data.bufIn) == d;
    assert |r.out| == |d|;
    assert r.out == (r.out + Pending(r.data.bufIn))[..|r.out|];
  }

  /** Two packets sent back to back and delivered in arbitrary pieces are
      handed out by two reads, in order, each exactly once. */
  lemma PipelinedFrames(codec: Codec, s: SaslData, script: seq<Arrival>, heap: Heap,
                        p1: seq<byte>, p2: seq<byte>, tail: seq<byte>, len: nat)
    requires Valid(s) && Pending(s.bufIn) == []
    requires Arriving(s.secIn, script) == p1 + p2 + tail
    requires WellFramed(p1) && WellFramed(p2)
    requires codec.decode(p1).Some? && codec.decode(p2).Some?
    requires Live(script) && MaxPacket <= heap.limit
    requires 0 < len && |codec.decode(p1).value| <= len && |codec.decode(p2).value| <= len
    ensures var r1 := Read(codec, s, script, heap, len);
      var r2 := Read(codec, r1.data, r1.rest, heap, len);
      && r1.out == codec.decode(p1).value
      && r2.out == codec.decode(p2).value
      && Arriving(r2.data.secIn, r2.rest) == tail
  {
    assert p1 + p2 + tail == p1 + (p2 + tail);
    ReadOneFrame(codec, s, script, heap, p1, p2 + tail, len);
    var r1 := Read(codec, s, script, heap, len);
    ReadOneFrame(codec, r1.data, r1.rest, heap, p2, tail, len);
  }

  /** What one write puts on the wire, read back by a fresh reader through a
      context whose decode undoes its encode, gives the written data back. */
  lemma WriteThenRead(codec: Codec, w: SaslData, rd: SaslData, data: seq<byte>, heap: Heap, len: nat)
    requires Valid(w) && Pending(w.bufOut) == []
    requires Valid(rd) && Staged(rd.secIn) == [] && Pending(rd.bufIn) == []
    requires codec.encode(data).Some? && WellFramed(codec.encode(data).value)
    requires codec.decode(codec.encode(data).value) == Some(data)
    requires MaxPacket <= heap.limit && 0 < len && |data| <= len
    ensures var e := codec.encode(data).value;
      var sent := Write(codec, w, [|e|], data);
      && sent.ret == |data| && sent.wire == e && Pending(sent.data.bufOut) == []
      && Read(codec, rd, [Bytes(sent.wire)], heap, len).out == data
  {
    var e := codec.encode(data).value;
    var sent := Write(codec, w, [|e|], data);
    assert Backlog(w, [|e|]).rest == [|e|];
    var fl := Flush(Holding(e), [|e|]);
    assert fl.ret == |e|;
    assert |sent.wire| == |e|;
    assert sent.wire == (sent.wire + Pending(sent.data.bufOut))[..|e|];
    var script := [Bytes(e)];
    assert Stream(script) == e by {
      assert script[1..] == [];
    }
    assert Arriving(rd.secIn, script) == e + [];
    ReadOneFrame(codec, rd, script, heap, e, [], len);
  }

  /** Whatever the transport does, a write loses and reorders nothing:
      what it hands the transport, followed by what stays pending, is the
      earlier packet's unsent bytes and then the new packet, if one was
      encoded. */
  lemma WriteKeepsOrder(codec: Codec, s: SaslData, script: seq<int>, data: seq<byte>)
    requires Valid(s)
    ensures var r := Write(codec, s, script, data);
      r.wire + Pending(r.data.bufOut) == Pending(s.bufOut) + (if r.encoded then codec.encode(data).value else [])
  {
    var r := Write(codec, s, script, data);
    if !r.encoded {
      assert Pending(s.bufOut) + [] == Pending(s.bufOut);
    }
  }

  /** Sequence bookkeeping for chaining two writes. */
  lemma Chain(w1: seq<byte>, w2: seq<byte>, p0: seq<byte>, p1: seq<byte>, p2: seq<byte>, e1: seq<byte>, e2: seq<byte>)
    requires w1 + p1 == p0 + e1 && w2 + p2 == p1 + e2
    ensures w1 + w2 + p2 == p0 + e1 + e2
  {
    assert w1 + w2 + p2 == w1 + (w2 + p2);
    assert w1 + (p1 + e2) == (w1 + p1) + e2;
  }

  /** A write that could send only part of a packet leaves the rest pending
      at the cursor, and the next write sends that rest first: the bytes of
      the two calls together are the bytes of the packets, in order. */
  lemma WritesResume(codec: Codec, s: SaslData, script1: seq<int>, data1: seq<byte>, script2: seq<int>, data2: seq<byte>)
    requires Valid(s)
    ensures var r1 := Write(codec, s, script1, data1);
      var r2 := Write(codec, r1.data, script2, data2);
      var e1 := if r1.encoded then codec.encode(data1).value else [];
      var e2 := if r2.encoded then codec.encode(data2).value else [];
      r1.wire + r2.wire + Pending(r2.data.bufOut) == Pending(s.bufOut) + e1 + e2
  {
    var r1 := Write(codec, s, script1, data1);
    var r2 := Write(codec, r1.data, script2, data2);
    WriteKeepsOrder(codec, s, script1, data1);
    WriteKeepsOrder(codec, r1.data, script2, data2);
    Chain(r1.wire, r2.wire, Pending(s.bufOut), Pending(r1.data.bufOut), Pending(r2.data.bufOut),
          if r1.encoded then codec.encode(data1).value else [],
          if r2.encoded then codec.encode(data2).value else []);
  }
}

=== FILE: as_written.dfy ===
/** sb_sasl_read exactly as libraries/libldap/sasl.c writes it, kept beside
    the corrected Adapter.Read to exhibit its two defects:
    - the header loop reads each piece into the start of the staging buffer
      instead of at its write cursor, so a header split across reads is
      assembled wrongly;
    - when the transport stops the read (end of stream, an error, a
      would-block), or the staging buffer cannot be grown for the frame,
      after bytes were already taken from the decrypted-input queue, those
      bytes are in the caller's buffer but the failure is returned, and the
      queue they came from has been emptied. */
module AsWritten {
  import opened Basics
  import opened Frame
  import opened Buffers
  import opened Transport
  import opened Adapter

  /** The header loop as written: every read lands at offset 0 while the
      write cursor advances by the count read. */
  function FillHeaderAsWritten(b: Buf, script: seq<Arrival>): (r: Fill)
    requires b.ptr <= |b.base| && HeaderLen <= |b.base|
    ensures |r.buf.base| == |b.base| && r.buf.end == b.end
    ensures r.buf.ptr <= Max(b.ptr, HeaderLen)
    ensures r.Reached? <==> HeaderLen <= r.buf.ptr
    ensures r.Stopped? ==> r.result == Count(0) || (r.result.Fail? && r.result.errno != EINTR)
    ensures r.buf.base[HeaderLen..] == b.base[HeaderLen..]
    ensures r.buf.ptr + |Stream(r.rest)| == b.ptr + |Stream(script)|
    decreases Weight(script)
  {
    if HeaderLen <= b.ptr then Reached(b, script)
    else
      var got := Recv(script, HeaderLen - b.ptr);
      match got.result
      case Fail(e) =>
        if e == EINTR then FillHeaderAsWritten(b, got.rest)
        else Stopped(got.result, b, got.rest)
      case Count(n) =>
        if n == 0 then Stopped(got.result, b, got.rest)
        else FillHeaderAsWritten(Store(b, 0, got.bytes).(ptr := b.ptr + n), got.rest)
  }

  /** Lines 527-593 of sb_sasl_read as written, entered with the ready
      queue emptied: the header loop stores at offset 0, and a transport stop
      is reported with the transport's own result. */
  function ReadSlowAsWritten(codec: Codec, s: SaslData, script: seq<Arrival>, heap: Heap, delivered: seq<byte>, want: nat): (r: ReadStep)
    requires Valid(s) && Pending(s.bufIn) == []
    ensures Valid(r.data) && r.data.bufOut == s.bufOut
    ensures |r.data.secIn.base| <= Max(|s.secIn.base|, MaxPacket)
    ensures r.exit != FastPath && r.result != Fail(EINTR)
    ensures r.exit == TransportStopped ==>
      r.out == delivered && Pending(r.data.bufIn) == [] && (r.result == Count(0) || r.result.Fail?)
    ensures r.exit == NoMemory ==>
      r.out == delivered && Pending(r.data.bufIn) == [] && r.result == Fail(ENOMEM)
  {
    match FillHeaderAsWritten(s.secIn, script)
    case Stopped(res, b, rest) => ReadStep(TransportStopped, res, delivered, s.(secIn := b), rest)
    case Reached(b, rest) => ReadPacket(codec, s.(secIn := b), rest, heap, delivered, want)
  }

  /** sb_sasl_read as written (lines 510-593). */
  function ReadAsWritten(codec: Codec, s: SaslData, script: seq<Arrival>, heap: Heap, len: nat): (r: ReadStep)
    requires Valid(s)
    ensures Valid(r.data) && r.data.bufOut == s.bufOut
    ensures r.result != Fail(EINTR)
    ensures r.exit == FastPath <==> len <= |Pending(s.bufIn)|
    ensures r.exit == FastPath ==>
      r.result == Count(len) && r.out + Pending(r.data.bufIn) == Pending(s.bufIn) && r.rest == script
    ensures r.exit == TransportStopped ==>
      r.out == Pending(s.bufIn) && Pending(r.data.bufIn) == [] && (r.result == Count(0) || r.result.Fail?)
    ensures r.exit == NoMemory ==>
      r.out == Pending(s.bufIn) && Pending(r.data.bufIn) == [] && r.result == Fail(ENOMEM)
  {
    var first := CopyOut(s.bufIn, len);
    if |first.out| == len then
      ReadStep(FastPath, Count(len), first.out, s.(bufIn := first.rest), script)
    else
      assert first.out == Pending(s.bufIn);
      ReadSlowAsWritten(codec, s.(bufIn := Empty), script, heap, first.out, len - |first.out|)
  }

  /** The stream [0, 0, 0, 5] delivered as two reads of two bytes. */
  const SplitHeader: seq<Arrival> := [Bytes([0, 0]), Bytes([0, 5])]

  lemma SplitHeaderStream()
    ensures Stream(SplitHeader) == [0, 0, 0, 5]
    ensures Live(SplitHeader)
  {
    var tail := SplitHeader[1..];
    assert tail[1..] == [];
    assert Stream(tail) == [0, 5] + Stream([]);
  }

  /** As written, the second piece of the header overwrites the first,
      whatever the staging storage held before. */
  lemma SplitHeaderAsWritten(h: seq<byte>)
    requires HeaderLen <= |h|
    ensures FillHeaderAsWritten(Buf(h, 0, 0), SplitHeader) == Reached(Buf([0, 5] + h[2..], 4, 0), [])
  {
    var b := Buf(h, 0, 0);
    var got := Recv(SplitHeader, 4);
    assert got == Received(Count(2), [0, 0], SplitHeader[1..]);
    var b1 := Store(b, 0, [0, 0]).(ptr := 2);
    assert b1.base == [0, 0] + h[2..] by {
      assert b1.base == b1.base[..2] + b1.base[2..];
    }
    var got2 := Recv(SplitHeader[1..], 2);
    assert got2 == Received(Count(2), [0, 5], []);
    var b2 := Store(b1, 0, [0, 5]).(ptr := 4);
    assert b2.base == [0, 5] + h[2..] by {
      assert b2.base == b2.base[..2] + b2.base[2..];
      assert b1.base[2..] == h[2..];
    }
    assert FillHeaderAsWritten(b1, SplitHeader[1..]) == FillHeaderAsWritten(b2, []);
  }

  /** Read at the cursor, the header is the stream's own four bytes. */
  lemma SplitHeaderCorrected(h: seq<byte>)
    requires HeaderLen <= |h|
    ensures var f := FillTo(Buf(h, 0, 0), HeaderLen, SplitHeader);
      f.Reached? && f.buf.base[..HeaderLen] == [0, 0, 0, 5]
  {
    SplitHeaderStream();
    var b := Buf(h, 0, 0);
    var f := FillTo(b, HeaderLen, SplitHeader);
    assert Staged(b) == [];
    assert Arriving(b, SplitHeader) == [0, 0, 0, 5];
    assert f.buf.ptr == HeaderLen;
    assert Staged(f.buf) == [0, 0, 0, 5];
  }

  /** A header arriving as two reads of two bytes each: as written the
      staged header begins [0, 5], which announces more than the ceiling
      whatever its last two bytes, and so sizes a 20-byte frame; read at the
      cursor it is the stream's [0, 0, 0, 5], a 9-byte frame. */
  lemma SplitHeaderMisread(h: seq<byte>)
    requires HeaderLen <= |h|
    ensures Stream(SplitHeader) == [0, 0, 0, 5]
    ensures var w := FillHeaderAsWritten(Buf(h, 0, 0), SplitHeader);
      w.Reached? && PktLength(w.buf.base[..HeaderLen]) == IllegalLength + HeaderLen
    ensures var f := FillTo(Buf(h, 0, 0), HeaderLen, SplitHeader);
      f.Reached? && PktLength(f.buf.base[..HeaderLen]) == 9
  {
    SplitHeaderStream();
    SplitHeaderAsWritten(h);
    SplitHeaderCorrected(h);
    var w := FillHeaderAsWritten(Buf(h, 0, 0), SplitHeader);
    assert w.buf.base[..HeaderLen] == [0, 5, h[2], h[3]];
    HeaderValues(h[2], h[3]);
  }

  lemma HeaderValues(x: byte, y: byte)
    ensures PktLength([0, 5, x, y]) == IllegalLength + HeaderLen
    ensures PktLength([0, 0, 0, 5]) == 9
    ensures PktLength([0, 0, 0x13, 0x88]) == 5004
  {
    var h: seq<byte> := [0, 5, x, y];
    assert BigEndian32(h) == ((0 * 0x100 + 5) * 0x100 + x) * 0x100 + y;
    var g: seq<byte> := [0, 0, 0, 5];
    assert BigEndian32(g) == ((0 * 0x100 + 0) * 0x100 + 0) * 0x100 + 5;
    var k: seq<byte> := [0, 0, 0x13, 0x88];
    assert BigEndian32(k) == ((0 * 0x100 + 0) * 0x100 + 0x13) * 0x100 + 0x88;
  }

  /** Two decrypted bytes are queued and the caller asks for five; the
      transport then reports EAGAIN.  As written, the two bytes are copied
      into the caller's buffer, the queue is emptied and -1 is returned, so
      they are lost; the corrected read returns 2. */
  lemma PendingBytesDropped(codec: Codec, heap: Heap)
    ensures var s := SaslData(Buf([0, 0, 0, 0], 0, 0), Buf([7, 7], 0, 2), Empty);
      var w := ReadAsWritten(codec, s, [Error(EAGAIN)], heap, 5);
      var r := Read(codec, s, [Error(EAGAIN)], heap, 5);
      && w.result == Fail(EAGAIN) && w.out == [7, 7] && Pending(w.data.bufIn) == []
      && r.result == Count(2) && r.out == [7, 7]
  {
    var s := SaslData(Buf([0, 0, 0, 0], 0, 0), Buf([7, 7], 0, 2), Empty);
    var script := [Error(EAGAIN)];
    assert Pending(s.bufIn) == [7, 7];
    assert Recv(script, 4).result == Fail(EAGAIN);
    assert FillHeaderAsWritten(s.secIn, script).Stopped?;
    assert FillTo(s.secIn, HeaderLen, script).Stopped?;
  }

  /** The header of a frame whose 5000-byte body outgrows the staging
      buffer sb_sasl_setup allocates. */
  const LargeHeader: seq<Arrival> := [Bytes([0, 0, 0x13, 0x88])]

  /** A layer just set up with 4096 bytes of staging, whose earlier reads
      left two decrypted bytes queued; the caller asks for five, and the
      transport delivers the header of a 5004-byte frame that the allocator,
      with room for 4096 bytes only, cannot grow the buffer to hold.  As
      written, the two bytes are copied out, the queue is emptied and -1
      (ENOMEM) is returned; the corrected read returns 2 and leaves the
      header staged for the next read. */
  lemma PendingBytesDroppedNoMemory(codec: Codec)
    ensures Setup(Heap(MinBuffSize)).Some?
    ensures var s := Setup(Heap(MinBuffSize)).value.(bufIn := Buf([7, 7], 0, 2));
      var w := ReadAsWritten(codec, s, LargeHeader, Heap(MinBuffSize), 5);
      var r := Read(codec, s, LargeHeader, Heap(MinBuffSize), 5);
      && w.result == Fail(ENOMEM) && w.out == [7, 7] && Pending(w.data.bufIn) == []
      && r.result == Count(2) && r.out == [7, 7] && r.rest == []
      && Staged(r.data.secIn) == [0, 0, 0x13, 0x88]
  {
    var s := Setup(Heap(MinBuffSize)).value.(bufIn := Buf([7, 7], 0, 2));
    assert Pending(s.bufIn) == [7, 7];
    assert LargeHeader[1..] == [];
    assert Stream(LargeHeader) == [0, 0, 0x13, 0x88] + Stream([]);
    HeaderValues(0, 0);
    var got := Recv(LargeHeader, 4);
    assert got == Received(Count(4), [0, 0, 0x13, 0x88], []);
    var wb := Store(s.secIn, 0, [0, 0, 0x13, 0x88]).(ptr := 4);
    assert wb.base[..HeaderLen] == [0, 0, 0x13, 0x88];
    assert FillHeaderAsWritten(s.secIn, LargeHeader) == FillHeaderAsWritten(wb, []);
    assert ReceiveFrame(wb, [], Heap(MinBuffSize)).None?;
    var f := FillTo(s.secIn, HeaderLen, LargeHeader);
    assert Arriving(s.secIn, LargeHeader) == [0, 0, 0x13, 0x88];
    assert f.Reached? && f.buf.ptr == HeaderLen;
    assert Staged(f.buf) == [0, 0, 0x13, 0x88];
    assert f.buf.base[..HeaderLen] == [0, 0, 0x13, 0x88];
    assert ReceiveFrame(f.buf, f.rest, Heap(MinBuffSize)).None?;
  }
}

=== FILE: basics.dfy ===
/** Small vocabulary shared by every module of the model. */
module Basics {

  /** One octet, as carried on the wire and held in a socket buffer. */
  type byte = b: int | 0 <= b < 256

  /** A value that may be absent: the model's rendering of a NULL pointer,
      a failed allocation or a failed SASL call. */
  datatype Option<T> = None | Some(value: T)

  /** The memory allocator as seen by this code: a request for `n` bytes
      succeeds exactly when `n <= limit`. */
  datatype Heap = Heap(limit: nat)

  function Min(a: int, b: int): int { if a <= b then a else b }

  function Max(a: int, b: int): int { if a <= b then b else a }
}

=== FILE: bind.dfy ===
/** ldap_sasl_bind up to the encoding of its BindRequest: the checks it
    makes first (the message-id out-parameter must be present, a SASL
    mechanism needs protocol version 3, the DN to send is settled) and the
    request those checks let through. */
module Bind {
  import opened Basics
  import opened Codes

  /** The request the checks let through, or the result code they set. */
  datatype Precheck = Proceed(dn: string) | Refused(rc: int)

  /** `mechanism` is None for LDAP_SASL_SIMPLE (the null mechanism), `dn`
      None for a NULL DN; `hasCred` says whether credentials were passed,
      `berAvailable` whether the request element could be allocated. */
  function SaslBindPrecheck(hasMsgId: bool, mechanism: Option<string>, dn: Option<string>, hasCred: bool,
                            version: int, defaultDn: Option<string>, berAvailable: bool): (r: Precheck)
    ensures !hasMsgId ==> r == Refused(LdapParamError)
    ensures r == Refused(LdapNotSupported) <==> hasMsgId && mechanism.Some? && version < LdapVersion3
    ensures r.Proceed? <==> hasMsgId && (mechanism.None? || LdapVersion3 <= version) && berAvailable
    ensures r.Refused? ==> r.rc in {LdapParamError, LdapNotSupported, LdapNoMemory}
    ensures r == Refused(LdapNoMemory) <==> hasMsgId && (mechanism.None? || LdapVersion3 <= version) && !berAvailable
    ensures r.Proceed? && dn.Some? ==> r.dn == dn.value
    ensures r.Proceed? && mechanism.Some? ==> r.dn == (if dn.Some? then dn.value else "")
    ensures r.Proceed? && dn.None? && !hasCred ==> r.dn == ""
    ensures r.Proceed? && mechanism.None? && dn.None? && hasCred ==>
      r.dn == (if defaultDn.Some? then defaultDn.value else "")
  {
    if !hasMsgId then Refused(LdapParamError)
    else if mechanism.Some? && version < LdapVersion3 then Refused(LdapNotSupported)
    else
      var chosen := if mechanism.None? && dn.None? && hasCred then defaultDn else dn;
      if !berAvailable then Refused(LdapNoMemory)
      else Proceed(if chosen.Some? then chosen.value else "")
  }

  /** The authentication choice of a BindRequest: simple with its optional
      password, or SASL with its mechanism and optional credentials. */
  datatype Authentication = SimpleAuth(password: Option<seq<byte>>) | SaslAuth(mechanism: string, credentials: Option<seq<byte>>)

  /** The fields ldap_sasl_bind hands to ber_printf. */
  datatype BindRequest = BindRequest(messageId: int, version: int, name: string, auth: Authentication)

  /** What ldap_sasl_bind does before sending: a request to send, or the
      result code it stopped with. */
  datatype Outgoing = Send(request: BindRequest) | Stop(rc: int)

  /** Lines 52-118 of ldap_sasl_bind: check, then choose the request.  The
      message id is one more than the handle's last one. */
  function SaslBind(hasMsgId: bool, mechanism: Option<string>, dn: Option<string>, cred: Option<seq<byte>>,
                    version: int, defaultDn: Option<string>, berAvailable: bool, lastMsgId: int): (r: Outgoing)
    ensures r.Send? ==> r.request.messageId == lastMsgId + 1 && r.request.version == version
    ensures r.Send? ==> (r.request.auth.SimpleAuth? <==> mechanism.None?)
    ensures r.Send? && r.request.auth.SimpleAuth? ==> r.request.auth.password == cred
    ensures r.Send? && r.request.auth.SaslAuth? ==>
      r.request.auth.mechanism == mechanism.value && r.request.auth.credentials == cred
  {
    match SaslBindPrecheck(hasMsgId, mechanism, dn, cred.Some?, version, defaultDn, berAvailable)
    case Refused(rc) => Stop(rc)
    case Proceed(name) =>
      Send(BindRequest(lastMsgId + 1, version, name,
                       if mechanism.None? then SimpleAuth(cred) else SaslAuth(mechanism.value, cred)))
  }

  /** A request goes out exactly when the checks pass, under the DN they
      settled; a SASL request never goes out below version 3, and a refusal
      is reported with the checks' own code. */
  lemma RequestFollowsPrecheck(hasMsgId: bool, mechanism: Option<string>, dn: Option<string>, cred: Option<seq<byte>>,
                               version: int, defaultDn: Option<string>, berAvailable: bool, lastMsgId: int)
    ensures var p := SaslBindPrecheck(hasMsgId, mechanism, dn, cred.Some?, version, defaultDn, berAvailable);
      var r := SaslBind(hasMsgId, mechanism, dn, cred, version, defaultDn, berAvailable, lastMsgId);
      && (r.Send? <==> p.Proceed?)
      && (r.Send? ==> r.request.name == p.dn)
      && (r.Stop? ==> r.rc == p.rc)
    ensures var r := SaslBind(hasMsgId, mechanism, dn, cred, version, defaultDn, berAvailable, lastMsgId);
      r.Send? && r.request.auth.SaslAuth? ==> LdapVersion3 <= version
  {
  }
}

=== FILE: buffers.dfy ===
/** The socket buffers the SASL layer keeps per connection (Sockbuf_Buf in
    liblber): backing storage whose length is the buffer size, a cursor and
    an end mark.  For the decrypted-input and encrypted-output buffers the
    live content is `base[ptr..end]`; for the encrypted-input staging buffer
    `ptr` is the write cursor and `end` the size of the frame being
    assembled. */
module Buffers {
  import opened Basics
  import opened Frame

  datatype Buf = Buf(base: seq<byte>, ptr: nat, end: nat)

  /** A buffer as left by ber_pvt_sb_buf_init and ber_pvt_sb_buf_destroy. */
  const Empty: Buf := Buf([], 0, 0)

  /** Cursor invariant of a buffer read from the front. */
  predicate Readable(b: Buf)
  {
    b.ptr <= b.end <= |b.base|
  }

  /** Bytes still waiting to be handed on. */
  function Pending(b: Buf): seq<byte>
    requires Readable(b)
  {
    b.base[b.ptr..b.end]
  }

  /** Cursor invariant of the encrypted-input staging buffer: the write
      cursor lies within the storage, which holds at least a header. */
  predicate Staging(b: Buf)
  {
    HeaderLen <= |b.base| && b.ptr <= |b.base|
  }

  /** Bytes already received into the staging buffer. */
  function Staged(b: Buf): seq<byte>
    requires b.ptr <= |b.base|
  {
    b.base[..b.ptr]
  }

  datatype Copied = Copied(out: seq<byte>, rest: Buf)

  /** ber_pvt_sb_copy_out: hands out up to `len` pending bytes, in order, and
      advances the cursor past them. */
  function CopyOut(b: Buf, len: nat): (c: Copied)
    requires Readable(b)
    ensures Readable(c.rest)
    ensures |c.out| == Min(len, |Pending(b)|)
    ensures c.out + Pending(c.rest) == Pending(b)
  {
    var n := Min(len, b.end - b.ptr);
    assert b.base[b.ptr..b.ptr + n] + b.base[b.ptr + n..b.end] == b.base[b.ptr..b.end];
    Copied(b.base[b.ptr..b.ptr + n], b.(ptr := b.ptr + n))
  }

  /** A buffer whose pending content is exactly `data`, as sasl_decode and
      sasl_encode leave their output buffer. */
  function Holding(data: seq<byte>): (b: Buf)
    ensures Readable(b) && Pending(b) == data
  {
    assert data[0..|data|] == data;
    Buf(data, 0, |data|)
  }

  /** ber_pvt_sb_grow_buffer: enlarges the storage to `size` bytes, keeping
      its content and cursors, or fails when the allocator cannot supply it. */
  function Grow(b: Buf, size: nat, heap: Heap): (r: Option<Buf>)
    requires |b.base| <= size
    ensures r.Some? <==> size <= heap.limit
    ensures r.Some? ==> |r.value.base| == size && r.value.base[..|b.base|] == b.base
    ensures r.Some? ==> r.value.ptr == b.ptr && r.value.end == b.end
  {
    if size > heap.limit then None
    else
      var grown := b.base + seq(size - |b.base|, _ => 0);
      assert grown[..|b.base|] == b.base;
      Some(b.(base := grown))
  }

  /** Copies `chunk` into the storage at offset `at`, leaving every other
      byte and both cursors alone. */
  function Store(b: Buf, at: nat, chunk: seq<byte>): (r: Buf)
    requires at + |chunk| <= |b.base|
    ensures |r.base| == |b.base| && r.ptr == b.ptr && r.end == b.end
    ensures r.base[..at + |chunk|] == b.base[..at] + chunk
    ensures r.base[at + |chunk|..] == b.base[at + |chunk|..]
  {
    var base := b.base[..at] + chunk + b.base[at + |chunk|..];
    assert base[..at + |chunk|] == b.base[..at] + chunk;
    b.(base := base)
  }

  /** Receives `chunk` at the write cursor of a staging buffer and advances
      the cursor past it. */
  function Append(b: Buf, chunk: seq<byte>): (r: Buf)
    requires b.ptr + |chunk| <= |b.base|
    ensures |r.base| == |b.base| && r.end == b.end && r.ptr == b.ptr + |chunk|
    ensures Staged(r) == Staged(b) + chunk
  {
    var r := Store(b, b.ptr, chunk).(ptr := b.ptr + |chunk|);
    assert Staged(r) == r.base[..b.ptr + |chunk|];
    r
  }

  /** Appending a chunk and then following the staged bytes with `rest`
      gives the old staged bytes, the chunk and `rest`, in that order. */
  lemma AppendThenRest(b: Buf, chunk: seq<byte>, rest: seq<byte>)
    requires b.ptr + |chunk| <= |b.base|
    ensures Staged(Append(b, chunk)) + rest == Staged(b) + (chunk + rest)
  {
    var x := Staged(b);
    assert Staged(Append(b, chunk)) == x + chunk;
    assert (x + chunk) + rest == x + (chunk + rest);
  }

  /** sb_sasl_drop_packet: discards the decoded frame `[0, end)` of a staging
      buffer, moves any pipelined bytes that followed it to the front and
      recomputes the expected frame end from their header. */
  function DropPacket(b: Buf): (r: Buf)
    requires b.end <= b.ptr <= |b.base|
    ensures |r.base| == |b.base| && r.ptr <= |r.base|
    ensures Staged(r) == Staged(b)[b.end..]
    ensures r.base[r.ptr..] == b.base[r.ptr..]
    ensures HeaderLen <= r.ptr ==> r.end == PktLength(b.base[b.end..b.end + HeaderLen])
    ensures r.ptr < HeaderLen ==> r.end == 0
  {
    var len := b.ptr - b.end;
    var base := b.base[b.end..b.ptr] + b.base[len..];
    assert base[..len] == b.base[b.end..b.ptr];
    assert base[len..] == b.base[len..];
    if HeaderLen <= len then
      assert base[..HeaderLen] == b.base[b.end..b.end + HeaderLen];
      Buf(base, len, PktLength(base[..HeaderLen]))
    else
      Buf(base, len, 0)
  }
}

=== FILE: callbacks.dfy ===
/** ldap_pvt_sasl_getsimple, the callback through which the SASL library
    asks for the user, the authentication name or the language, and the
    callback table ldap_negotiated_sasl_bind_s registers it in. */
module Callbacks {
  import opened Basics
  import opened Codes

  /** What the callback returns and writes: `result` and `len` are None when
      the callback leaves that out-parameter untouched; a written `result`
      is itself None for a NULL string. */
  datatype Answer = Answer(rc: int, result: Option<Option<string>>, len: Option<nat>)

  /** `context` is the string the callback was registered with (None for
      NULL); `hasResult` and `hasLen` say whether those pointers are
      non-NULL. */
  function GetSimple(context: Option<string>, id: int, hasResult: bool, hasLen: bool): (a: Answer)
    ensures a.rc == SaslOk || a.rc == SaslBadParam
    ensures a.rc == SaslOk <==> hasResult && id in {SaslCbUser, SaslCbAuthName, SaslCbLanguage}
    ensures a.rc == SaslBadParam ==> a.result.None? && a.len.None?
    ensures a.result.Some? <==> a.rc == SaslOk
    ensures a.len.Some? <==> a.rc == SaslOk && hasLen
    ensures a.rc == SaslOk && id != SaslCbLanguage ==> a.result == Some(context)
    ensures a.rc == SaslOk && id == SaslCbLanguage ==> a.result == Some(None)
    ensures a.len.Some? ==>
      a.len.value == (if a.result.value.Some? then |a.result.value.value| else 0)
  {
    if !hasResult then Answer(SaslBadParam, None, None)
    else if id == SaslCbUser || id == SaslCbAuthName then
      Answer(SaslOk, Some(context),
             if hasLen then Some(if context.Some? then |context.value| else 0) else None)
    else if id == SaslCbLanguage then
      Answer(SaslOk, Some(None), if hasLen then Some(0) else None)
    else Answer(SaslBadParam, None, None)
  }

  /** The length getsimple reports for a string: 0 for NULL. */
  function LengthOf(value: Option<string>): nat
  {
    if value.Some? then |value.value| else 0
  }

  /** One sasl_callback_t: an identity answered by getsimple from its
      registered string, the passphrase answered by getsecret, or the
      terminator. */
  datatype Callback = Simple(id: int, context: Option<string>) | Secret | ListEnd

  /** The table ldap_negotiated_sasl_bind_s builds: the authentication
      identity, the authorization identity when one is given, the
      passphrase, and the terminator, in that order. */
  function NegotiatedCallbacks(authenticationId: Option<string>, authorizationId: Option<string>): (t: seq<Callback>)
    ensures 3 <= |t| <= 4
    ensures t[0] == Simple(SaslCbAuthName, authenticationId)
    ensures |t| == 4 <==> authorizationId.Some?
    ensures authorizationId.Some? ==> t[1] == Simple(SaslCbUser, authorizationId)
    ensures t[|t| - 2] == Secret && t[|t| - 1] == ListEnd
  {
    [Simple(SaslCbAuthName, authenticationId)]
    + (if authorizationId.Some? then [Simple(SaslCbUser, authorizationId)] else [])
    + [Secret, ListEnd]
  }

  /** How the SASL library asks a table for a simple value: the first entry
      before the terminator registered for `id` is called with both output
      pointers supplied.  None when no getsimple entry is registered for
      it. */
  function Ask(table: seq<Callback>, id: int): (a: Option<Answer>)
    ensures a.Some? ==>
      exists i :: 0 <= i < |table| && table[i].Simple? && table[i].id == id &&
        a.value == GetSimple(table[i].context, id, true, true)
  {
    if table == [] || table[0] == ListEnd then None
    else if table[0].Simple? && table[0].id == id then Some(GetSimple(table[0].context, id, true, true))
    else Ask(table[1..], id)
  }

  /** Asked through the table a negotiated bind registers, the SASL library
      gets back exactly the identities the caller passed: the authentication
      identity always, the authorization identity only when one was given,
      each with its length; a language is never registered. */
  lemma NegotiatedAnswers(authenticationId: Option<string>, authorizationId: Option<string>)
    ensures var t := NegotiatedCallbacks(authenticationId, authorizationId);
      Ask(t, SaslCbAuthName) == Some(Answer(SaslOk, Some(authenticationId), Some(LengthOf(authenticationId))))
    ensures var t := NegotiatedCallbacks(authenticationId, authorizationId);
      Ask(t, SaslCbUser) ==
        if authorizationId.Some? then Some(Answer(SaslOk, Some(authorizationId), Some(|authorizationId.value|)))
        else None
    ensures Ask(NegotiatedCallbacks(authenticationId, authorizationId), SaslCbLanguage) == None
  {
    var t := NegotiatedCallbacks(authenticationId, authorizationId);
    var tail := [Secret, ListEnd];
    assert tail[1..] == [ListEnd];
    assert Ask(tail, SaslCbUser) == None && Ask(tail, SaslCbLanguage) == None;
    if authorizationId.Some? {
      assert t[1..] == [Simple(SaslCbUser, authorizationId)] + tail;
      assert t[1..][1..] == tail;
    } else {
      assert t[1..] == tail;
    }
  }
}

=== FILE: codes.dfy ===
/** The status codes this part of libldap exchanges: Cyrus SASL's result
    codes and callback identifiers (sasl.h), and the LDAP result codes of
    ldap.h.  Neither header is part of this model; the values are those
    headers' definitions in the era of libraries/libldap/sasl.c. */
module Codes {
  // Cyrus SASL result codes.
  const SaslContinue: int := 1
  const SaslOk: int := 0
  const SaslFail: int := -1
  const SaslNoMem: int := -2
  const SaslNoMech: int := -4
  const SaslBadParam: int := -7
  const SaslBadAuth: int := -13
  const SaslNoAuthz: int := -14
  const SaslTooWeak: int := -15
  const SaslEncrypt: int := -16

  // Cyrus SASL callback identifiers.
  const SaslCbUser: int := 0x4001
  const SaslCbAuthName: int := 0x4002
  const SaslCbLanguage: int := 0x4003

  // LDAP result codes.
  const LdapSuccess: int := 0x00
  const LdapLocalError: int := 0x52
  const LdapAuthUnknown: int := 0x56
  const LdapParamError: int := 0x59
  const LdapNoMemory: int := 0x5a
  const LdapNotSupported: int := 0x5c
  const LdapMoreResultsToReturn: int := 0x5f

  /** LDAP_API_ERROR: the codes the client library itself reports. */
  predicate IsApiError(rc: int)
  {
    0x51 <= rc <= 0xff
  }

  /** The protocol version from which SASL binds are available. */
  const LdapVersion3: int := 3
}

=== FILE: error_map.dfy ===
/** sasl_err2ldap: the translation of a SASL library status into the LDAP
    result code a bind reports. */
module ErrorMap {
  import opened Basics
  import opened Codes

  /** The SASL statuses that mean the mechanism could not authenticate. */
  const AuthFailures: set<int> := {SaslNoMech, SaslBadAuth, SaslTooWeak, SaslEncrypt}

  function SaslErrToLdap(saslErr: int): (rc: int)
    ensures rc == LdapSuccess || IsApiError(rc)
    ensures rc == LdapSuccess <==> saslErr == SaslOk
    ensures rc == LdapMoreResultsToReturn <==> saslErr == SaslContinue
    ensures rc == LdapNoMemory <==> saslErr == SaslNoMem
    ensures rc == LdapParamError <==> saslErr == SaslNoAuthz
    ensures rc == LdapAuthUnknown <==> saslErr in AuthFailures
    ensures rc == LdapLocalError <==>
      saslErr !in {SaslOk, SaslContinue, SaslNoMem, SaslNoAuthz} && saslErr !in AuthFailures
  {
    if saslErr == SaslContinue then LdapMoreResultsToReturn
    else if saslErr == SaslOk then LdapSuccess
    else if saslErr == SaslFail then LdapLocalError
    else if saslErr == SaslNoMem then LdapNoMemory
    else if saslErr == SaslNoMech then LdapAuthUnknown
    else if saslErr == SaslBadAuth then LdapAuthUnknown
    else if saslErr == SaslNoAuthz then LdapParamError
    else if saslErr == SaslTooWeak || saslErr == SaslEncrypt then LdapAuthUnknown
    else LdapLocalError
  }

  /** What a SASL status means to a bind, independently of how it is
      signalled: more data needed, success, an allocation failure, an
      unsupported authorization identity, a failed authentication, or a
      failure local to the client. */
  datatype Outcome =
    | MoreDataNeeded
    | Succeeded
    | OutOfMemory
    | InvalidParameter
    | AuthenticationFailed
    | LocalFailure

  /** The classification of every SASL status. */
  function Classify(saslErr: int): (o: Outcome)
    ensures o == MoreDataNeeded <==> saslErr == SaslContinue
    ensures o == Succeeded <==> saslErr == SaslOk
    ensures o == OutOfMemory <==> saslErr == SaslNoMem
    ensures o == InvalidParameter <==> saslErr == SaslNoAuthz
    ensures o == AuthenticationFailed <==> saslErr in AuthFailures
  {
    if saslErr == SaslContinue then MoreDataNeeded
    else if saslErr == SaslOk then Succeeded
    else if saslErr == SaslNoMem then OutOfMemory
    else if saslErr == SaslNoAuthz then InvalidParameter
    else if saslErr in AuthFailures then AuthenticationFailed
    else LocalFailure
  }

  /** The LDAP result code that signals each outcome. */
  function Signal(o: Outcome): (rc: int)
    ensures rc == LdapSuccess || IsApiError(rc)
  {
    match o
    case MoreDataNeeded => LdapMoreResultsToReturn
    case Succeeded => LdapSuccess
    case OutOfMemory => LdapNoMemory
    case InvalidParameter => LdapParamError
    case AuthenticationFailed => LdapAuthUnknown
    case LocalFailure => LdapLocalError
  }

  /** Reads the outcome back from a result code; None for a code no
      outcome is signalled by. */
  function Recover(rc: int): (o: Option<Outcome>)
    ensures o.Some? ==> Signal(o.value) == rc
  {
    if rc == LdapMoreResultsToReturn then Some(MoreDataNeeded)
    else if rc == LdapSuccess then Some(Succeeded)
    else if rc == LdapNoMemory then Some(OutOfMemory)
    else if rc == LdapParamError then Some(InvalidParameter)
    else if rc == LdapAuthUnknown then Some(AuthenticationFailed)
    else if rc == LdapLocalError then Some(LocalFailure)
    else None
  }

  /** Distinct outcomes are signalled by distinct codes. */
  lemma SignalRecover(o: Outcome)
    ensures Recover(Signal(o)) == Some(o)
  {
  }

  /** sasl_err2ldap is the classification followed by its signal: every
      status is mapped to a recognised code, never passed through, and the
      code tells exactly which outcome the status meant. */
  lemma MapFollowsOutcome(saslErr: int)
    ensures SaslErrToLdap(saslErr) == Signal(Classify(saslErr))
    ensures Recover(SaslErrToLdap(saslErr)) == Some(Classify(saslErr))
  {
    SignalRecover(Classify(saslErr));
  }

  /** Only the two non-failure statuses escape the failure codes: every
      SASL failure becomes an LDAP error, never success or "more results". */
  lemma FailuresStayFailures(saslErr: int)
    requires saslErr < 0
    ensures Classify(saslErr) != Succeeded && Classify(saslErr) != MoreDataNeeded
    ensures IsApiError(SaslErrToLdap(saslErr)) && SaslErrToLdap(saslErr) != LdapMoreResultsToReturn
  {
  }
}

=== FILE: frame.dfy ===
/** The packet-length codec of the SASL security layer.  Every protected
    packet is a four-octet network-order length followed by that many octets,
    as section 3 of RFC 2222 lays out. */
module Frame {
  import opened Basics

  /** The largest packet body a peer may announce. */
  const MaxBuffSize: nat := 65536
  /** Initial capacity of the encrypted-input staging buffer. */
  const MinBuffSize: nat := 4096
  /** Size of the length prefix. */
  const HeaderLen: nat := 4
  /** Body length substituted for an announced length above the ceiling;
      small enough that decoding the resulting packet is expected to fail. */
  const IllegalLength: nat := 16
  /** The largest packet, header included, the reader ever stages. */
  const MaxPacket: nat := MaxBuffSize + HeaderLen

  /** The unsigned 32-bit big-endian value of the first four octets. */
  function BigEndian32(h: seq<byte>): (v: nat)
    requires |h| >= HeaderLen
    ensures v < 0x1_0000_0000
  {
    ((h[0] as int * 0x100 + h[1]) * 0x100 + h[2]) * 0x100 + h[3]
  }

  /** The four-octet network-order encoding of `n`. */
  function EncodeLength(n: nat): (h: seq<byte>)
    requires n < 0x1_0000_0000
    ensures |h| == HeaderLen
  {
    var n1 := n / 0x100;
    var n2 := n1 / 0x100;
    [n2 / 0x100, n2 % 0x100, n1 % 0x100, n % 0x100]
  }

  lemma DivModByte(q: nat, r: nat)
    requires r < 0x100
    ensures (q * 0x100 + r) / 0x100 == q
    ensures (q * 0x100 + r) % 0x100 == r
  {
  }

  /** Decoding an encoded length gives the length back. */
  lemma DecodeEncodeLength(n: nat)
    requires n < 0x1_0000_0000
    ensures BigEndian32(EncodeLength(n)) == n
  {
    var h := EncodeLength(n);
    var n1 := n / 0x100;
    var n2 := n1 / 0x100;
    assert n == n1 * 0x100 + n % 0x100;
    assert n1 == n2 * 0x100 + n1 % 0x100;
    assert n2 == (n2 / 0x100) * 0x100 + n2 % 0x100;
    assert h[0] as int * 0x100 + h[1] == n2;
    assert (h[0] as int * 0x100 + h[1]) * 0x100 + h[2] == n1;
  }

  /** Encoding the value of a header gives the header back. */
  lemma EncodeDecodeLength(h: seq<byte>)
    requires |h| >= HeaderLen
    ensures EncodeLength(BigEndian32(h)) == h[..HeaderLen]
  {
    var v := BigEndian32(h);
    var hi: int := h[0] as int * 0x100 + h[1];
    var mid: int := hi * 0x100 + h[2];
    DivModByte(mid, h[3]);
    DivModByte(hi, h[2]);
    DivModByte(h[0], h[1]);
    assert v / 0x100 == mid && v % 0x100 == h[3];
    assert mid / 0x100 == hi && mid % 0x100 == h[2];
    assert hi / 0x100 == h[0] && hi % 0x100 == h[1];
  }

  /** The frame size the reader expects from a header (sb_sasl_pkt_length):
      the announced body length plus the header itself, with an announced
      length above the ceiling replaced by the illegal sentinel. */
  function PktLength(h: seq<byte>): (r: nat)
    requires |h| >= HeaderLen
    ensures HeaderLen <= r <= MaxPacket
    ensures r == BigEndian32(h) + HeaderLen <==> BigEndian32(h) <= MaxBuffSize
    ensures MaxBuffSize < BigEndian32(h) ==> r == IllegalLength + HeaderLen
  {
    var size := BigEndian32(h);
    (if size > MaxBuffSize then IllegalLength else size) + HeaderLen
  }

  /** A packet laid out as section 3 of RFC 2222 describes, with a body no
      longer than the ceiling. */
  predicate WellFramed(p: seq<byte>)
  {
    && HeaderLen <= |p|
    && |p| - HeaderLen <= MaxBuffSize
    && BigEndian32(p) == |p| - HeaderLen
  }

  /** Wraps a body in its length prefix. */
  function Packet(body: seq<byte>): (p: seq<byte>)
    requires |body| <= MaxBuffSize
    ensures WellFramed(p)
    ensures p[HeaderLen..] == body
  {
    DecodeEncodeLength(|body|);
    var p := EncodeLength(|body|) + body;
    assert p[..HeaderLen] == EncodeLength(|body|);
    p
  }

  /** Whatever follows a well-framed packet, the reader's frame size is
      exactly that packet's size. */
  lemma FramedLength(p: seq<byte>, rest: seq<byte>)
    requires WellFramed(p)
    ensures PktLength((p + rest)[..HeaderLen]) == |p|
  {
    var h := (p + rest)[..HeaderLen];
    assert h[0] == p[0] && h[1] == p[1] && h[2] == p[2] && h[3] == p[3];
  }
}

=== FILE: mech_list.dfy ===
/** array2str: the mechanism names a server advertises, joined into the
    single space-separated list the SASL library takes. */
module MechList {
  import opened Basics

  /** The names joined by single spaces. */
  function Join(names: seq<string>): (s: string)
  {
    if |names| == 0 then []
    else if |names| == 1 then names[0]
    else Join(names[..|names| - 1]) + [' '] + names[|names| - 1]
  }

  /** The bytes the first pass of array2str asks for: each name and one more
      byte, for the space after it or, after the last, the terminator. */
  function Footprint(names: seq<string>): nat
  {
    if names == [] then 0 else Footprint(names[..|names| - 1]) + |names[|names| - 1]| + 1
  }

  /** The joined list and its terminator fill the allocation exactly. */
  lemma {:induction false} JoinFits(names: seq<string>)
    requires names != []
    ensures |Join(names)| + 1 == Footprint(names)
    decreases |names|
  {
    if |names| > 1 {
      JoinFits(names[..|names| - 1]);
      var init := names[..|names| - 1];
      assert init[..|init| - 1] == names[..|names| - 2];
    } else {
      assert names[..0] == [];
    }
  }

  /** Cuts a string at every space; the inverse of Join. */
  function Split(s: string): (parts: seq<string>)
    ensures |parts| >= 1
  {
    if s == [] then [[]]
    else
      var init := Split(s[..|s| - 1]);
      if s[|s| - 1] == ' ' then init + [[]]
      else init[..|init| - 1] + [init[|init| - 1] + [s[|s| - 1]]]
  }

  predicate NoSpace(name: string)
  {
    forall i :: 0 <= i < |name| ==> name[i] != ' '
  }

  lemma {:induction false} SplitWord(w: string)
    requires NoSpace(w)
    ensures Split(w) == [w]
    decreases |w|
  {
    if w != [] {
      var init := w[..|w| - 1];
      SplitWord(init);
      assert init + [w[|w| - 1]] == w;
    }
  }

  lemma {:induction false} SplitAfterSpace(x: string, w: string)
    requires NoSpace(w)
    ensures Split(x + [' '] + w) == Split(x) + [w]
    decreases |w|
  {
    if w == [] {
      assert x + [' '] + w == x + [' '];
      assert (x + [' '])[..|x|] == x;
    } else {
      var init := w[..|w| - 1];
      var s := x + [' '] + w;
      assert s[..|s| - 1] == x + [' '] + init;
      SplitAfterSpace(x, init);
      assert init + [w[|w| - 1]] == w;
    }
  }

  /** A list of space-free names survives joining and cutting. */
  lemma {:induction false} SplitJoin(names: seq<string>)
    requires names != []
    requires forall i :: 0 <= i < |names| ==> NoSpace(names[i])
    ensures Split(Join(names)) == names
    decreases |names|
  {
    if |names| == 1 {
      SplitWord(names[0]);
    } else {
      var init := names[..|names| - 1];
      SplitJoin(init);
      SplitAfterSpace(Join(init), names[|names| - 1]);
      assert init + [names[|names| - 1]] == names;
    }
  }

  /** array2str: sizes the list in a first pass, returns None (NULL) when
      there is nothing to join or the allocation fails, and otherwise builds
      the joined list followed by its terminator in a buffer of exactly the
      size asked for. */
  method ArrayToStr(names: seq<string>, heap: Heap) returns (r: Option<string>)
    ensures r.Some? <==> names != [] && Footprint(names) <= heap.limit
    ensures r.Some? ==> |r.value| == Footprint(names)
    ensures r.Some? ==> r.value == Join(names) + ['\0']
  {
    var len := 0;
    var i := 0;
    while i < |names|
      invariant i <= |names|
      invariant len == Footprint(names[..i])
    {
      assert names[..i + 1][..i] == names[..i];
      len := len + |names[i]| + 1;
      i := i + 1;
    }
    assert names[..|names|] == names;
    if len == 0 {
      return None;
    }
    if heap.limit < len {
      return None;
    }
    var out: string := names[0];
    i := 1;
    while i < |names|
      invariant 1 <= i <= |names|
      invariant out == Join(names[..i])
    {
      assert names[..i + 1][..i] == names[..i];
      out := out + [' '] + names[i];
      i := i + 1;
    }
    JoinFits(names);
    return Some(out + ['\0']);
  }
}

=== FILE: options.dfy ===
/** ldap_pvt_sasl_get_option and ldap_pvt_sasl_set_option: the security
    strength factor options of a connection handle. */
module Options {
  import opened Basics

  /** LDAP_OPT_X_SASL_MINSSF, _MAXSSF, _ACTSSF, and any other option. */
  datatype SaslOption = MinSsf | MaxSsf | ActSsf | OtherOption(code: int)

  /** A negotiated SASL context; `ssf` is None when sasl_getprop cannot
      report the strength factor. */
  datatype SaslContext = SaslContext(ssf: Option<nat>)

  /** The parts of an LDAP handle these options touch. */
  datatype Session = Session(minSsf: int, maxSsf: int, context: Option<SaslContext>)

  /** A get: the return code, and the value written to `arg` if any. */
  datatype Got = Got(rc: int, value: Option<int>)

  /** `ld` is None for a NULL handle. */
  function GetOption(ld: Option<Session>, opt: SaslOption): (g: Got)
    ensures g.rc == 0 || g.rc == -1
    ensures g.value.Some? <==> g.rc == 0
    ensures ld.None? || opt.OtherOption? ==> g.rc == -1
    ensures ld.Some? && opt == MinSsf ==> g == Got(0, Some(ld.value.minSsf))
    ensures ld.Some? && opt == MaxSsf ==> g == Got(0, Some(ld.value.maxSsf))
    ensures ld.Some? && opt == ActSsf && ld.value.context.None? ==> g == Got(0, Some(-1))
    ensures ld.Some? && opt == ActSsf && ld.value.context.Some? ==>
      (g.rc == 0 <==> ld.value.context.value.ssf.Some?) &&
      (g.rc == 0 ==> g.value.value == ld.value.context.value.ssf.value)
  {
    if ld.None? then Got(-1, None)
    else match opt
      case MinSsf => Got(0, Some(ld.value.minSsf))
      case MaxSsf => Got(0, Some(ld.value.maxSsf))
      case ActSsf =>
        if ld.value.context.None? then Got(0, Some(-1))
        else if ld.value.context.value.ssf.None? then Got(-1, None)
        else Got(0, Some(ld.value.context.value.ssf.value))
      case OtherOption(_) => Got(-1, None)
  }

  /** A set: the return code and the handle afterwards. */
  datatype Set = Set(rc: int, ld: Option<Session>)

  function SetOption(ld: Option<Session>, opt: SaslOption, arg: int): (s: Set)
    ensures s.rc == 0 <==> ld.Some? && (opt == MinSsf || opt == MaxSsf)
    ensures s.rc == -1 ==> s.ld == ld
    ensures s.ld.Some? <==> ld.Some?
    ensures s.rc == 0 ==> s.ld.value.context == ld.value.context
    ensures s.rc == 0 && opt == MinSsf ==> s.ld.value.maxSsf == ld.value.maxSsf
    ensures s.rc == 0 && opt == MaxSsf ==> s.ld.value.minSsf == ld.value.minSsf
  {
    if ld.None? then Set(-1, ld)
    else match opt
      case MinSsf => Set(0, Some(ld.value.(minSsf := arg)))
      case MaxSsf => Set(0, Some(ld.value.(maxSsf := arg)))
      case _ => Set(-1, ld)
  }

  /** Reading an option back after a successful set gives the value set,
      and the other option reads as before. */
  lemma GetAfterSet(ld: Option<Session>, opt: SaslOption, arg: int, other: SaslOption)
    requires SetOption(ld, opt, arg).rc == 0 && other != opt
    ensures GetOption(SetOption(ld, opt, arg).ld, opt) == Got(0, Some(arg))
    ensures GetOption(SetOption(ld, opt, arg).ld, other) == GetOption(ld, other)
  {
  }

  /** The negotiated strength factor cannot be set: the handle is unchanged
      and reads as before. */
  lemma ActualSsfReadOnly(ld: Option<Session>, arg: int)
    ensures SetOption(ld, ActSsf, arg) == Set(-1, ld)
    ensures GetOption(SetOption(ld, ActSsf, arg).ld, ActSsf) == GetOption(ld, ActSsf)
  {
  }
}

=== FILE: transport.dfy ===
/** The byte stream beneath the SASL layer, seen through LBER_SBIOD_READ_NEXT.
    The peer's behaviour is a script: each arrival is either a chunk of bytes
    that has become available or an error the next read reports.  A read asks
    for `want` bytes and gets as many of the next chunk as fit, the rest of
    that chunk staying available for the following read.  A read of an empty
    chunk, or of an exhausted script, returns 0: the peer closed the stream. */
module Transport {
  import opened Basics

  /** The errno values this code tests or sets, and any other. */
  datatype Errno = EINTR | EIO | ENOMEM | EAGAIN | OtherErrno(code: nat)

  /** A read's return value: a byte count (0 at end of stream), or -1 with
      errno. */
  datatype IoResult = Count(n: nat) | Fail(errno: Errno)
  {
    /** The value the C function returns. */
    function Ret(): int
    {
      if Count? then n else -1
    }
  }

  datatype Arrival = Bytes(chunk: seq<byte>) | Error(errno: Errno)

  /** Every byte the script will deliver, in order. */
  function Stream(script: seq<Arrival>): seq<byte>
  {
    if script == [] then []
    else (if script[0].Bytes? then script[0].chunk else []) + Stream(script[1..])
  }

  /** Termination measure: every read that consumes anything shrinks it. */
  function Weight(script: seq<Arrival>): nat
  {
    if script == [] then 0
    else 1 + (if script[0].Bytes? then |script[0].chunk| else 0) + Weight(script[1..])
  }

  /** A script on which every read makes progress or is interrupted by a
      signal: each arrival is a non-empty chunk or EINTR, so the stream
      neither closes early nor fails. */
  predicate Live(script: seq<Arrival>)
  {
    forall i :: 0 <= i < |script| ==> (script[i].Bytes? && script[i].chunk != []) || script[i] == Error(EINTR)
  }

  datatype Received = Received(result: IoResult, bytes: seq<byte>, rest: seq<Arrival>)

  /** One read of at most `want` bytes. */
  function Recv(script: seq<Arrival>, want: nat): (r: Received)
    requires 0 < want
    ensures r.result.Count? ==> r.result.n == |r.bytes| <= want
    ensures r.result.Fail? ==> r.bytes == []
    ensures r.bytes + Stream(r.rest) == Stream(script)
    ensures script == [] ==> r.result == Count(0)
    ensures script != [] ==> Weight(r.rest) < Weight(script)
  {
    if script == [] then Received(Count(0), [], [])
    else match script[0]
      case Error(e) => Received(Fail(e), [], script[1..])
      case Bytes(c) =>
        if |c| <= want then Received(Count(|c|), c, script[1..])
        else
          var rest := [Bytes(c[want..])] + script[1..];
          assert rest[1..] == script[1..];
          assert c[..want] + c[want..] == c;
          Received(Count(want), c[..want], rest)
  }

  /** What one read returns, arrival by arrival: end of stream on an
      exhausted script, the error at the head of the script, or as much of
      the chunk at its head as was asked for. */
  lemma RecvHead(script: seq<Arrival>, want: nat)
    requires 0 < want
    ensures script == [] ==> Recv(script, want) == Received(Count(0), [], [])
    ensures script != [] && script[0].Error? ==>
      Recv(script, want) == Received(Fail(script[0].errno), [], script[1..])
    ensures script != [] && script[0].Bytes? ==>
      var n := Min(|script[0].chunk|, want);
      Recv(script, want).result == Count(n) && Recv(script, want).bytes == script[0].chunk[..n]
      && (n == |script[0].chunk| ==> Recv(script, want).rest == script[1..])
  {
    if script != [] && script[0].Bytes? && |script[0].chunk| <= want {
      assert script[0].chunk[..|script[0].chunk|] == script[0].chunk;
    }
  }

  /** A read reports an error only by consuming it from the script; on a
      live stream it delivers at least one byte or is interrupted, and what
      remains is live too. */
  lemma RecvLive(script: seq<Arrival>, want: nat)
    requires 0 < want
    ensures var r := Recv(script, want);
      r.result.Fail? ==> script != [] && script[0] == Error(r.result.errno) && r.rest == script[1..]
    ensures var r := Recv(script, want);
      Live(script) ==> Live(r.rest) && (script != [] ==> (r.result.Count? && 0 < r.result.n) || r.result == Fail(EINTR))
  {
    if script != [] && script[0].Bytes? && want < |script[0].chunk| {
      var r := Recv(script, want);
      assert r.rest[0] == Bytes(script[0].chunk[want..]);
      assert r.rest[1..] == script[1..];
    }
  }
}
